=== FILE: README.md ===
# Bitter, modelled in Dafny

Bitter is a PHP library for real-time analytics on Redis bitmaps. It records that an id (a
user, say) took part in an event at a date. `mark` sets the id's bit in one Redis bit-vector per
calendar bucket of that date: the year, month, ISO week, day and hour. Units wrapped as
Aggregations instead bump a score in a sorted set. Every written key is added to an index set.
Reads then ask whether an id was marked (`in`) and how many ids were (`count`). Bit-vectors can
be combined with BITOP AND/OR/XOR into temporary keys. `bitDateRange` ORs together every bucket
that covers a date range. `aggregationDateRange` does the same for score accumulators, with one
ZUNIONSTORE. `getIds` decodes a bit-vector back into its sorted ids. `removeAll` and
`removeTemp` delete every key an index lists.

The model replaces the Redis client with values:

- A write operation returns the list of commands it would issue (`Commands.Command`).
- `BitStore.ApplyAll` gives those commands' effect on an abstract store, where each bit-vector
  key holds the set of offsets whose bit is 1.
- A read is a function of that store.
- Exceptions become `Failure` values of `Wrappers.Result`.
- The wall clock (`new DateTime()`) becomes a `now` parameter.
- The DatePeriod factories that list a range's buckets become function parameters
  (`DateRange.Enumerators`).
- SMEMBERS becomes a function parameter.

| file | models |
|---|---|
| `calendar.dfy` | dates in UTC, to the whole second; Unix timestamps; ISO 8601 week numbers; PHP's `>` on DateTime |
| `digits.dfy` | zero-padded numerals for the `Y`, `m`, `d`, `H` and `W` formats |
| `labels.dfy` | each unit's `getDateTimeFormated`, plus a reader that recovers the fields |
| `events.dfy` | `Event` |
| `keys.dfy` | `Key` and `AggregationKey` |
| `units_of_time.dfy` | `AbstractUnitOfTime`, its six subclasses, and `Event::getUnitsOfTime` |
| `aggregation.dfy` | `Aggregation` |
| `commands.dfy` | the Redis commands as data |
| `store.dfy` | the abstract store and each command's effect on it |
| `bitter.dfy` | `hash`, `mark`, `in`, `count` and the `bitOp*` family |
| `date_range.dfy` | `bitDateRange` and `aggregationDateRange` |
| `bit_decoding.dfy` | the bit-vector branch of `getIds` |
| `cleanup.dfy` | `removeAll` and `removeTemp` |

Facts about the code that the model keeps and proves:

- **`new Event($name)` drops the name.** `Event`'s initializer is a plain method called
  `construct`, not `__construct`, so `new Event($name)` leaves the key null. `mark` with a raw
  event name therefore writes keys such as `bitter::2024-03-07`, whatever the name was. `Bitter.MarkIgnoresRawName` and
  `UnitsOfTime.UnnamedEventKey` state this.
- **The week label uses the calendar year.** `Y-WW` pairs the calendar year with the ISO week
  number. So 2024-01-01 and 2024-12-30 are in different ISO weeks but share the label
  `2024-W01` (`Labels.WeekLabelCollision`).
- **The index sets are never deleted.** `removeAll` and `removeTemp` delete the keys an index
  lists but not the index itself (`Cleanup.IndexIsKept`).
- **Unit keys cannot reach the main index, but a Key can reach the temporary one.** A unit of
  time always hashes to a key containing a colon, so it never hits `<prefix>keys`. A
  `Key('keys')`, however, hashes to the temporary index key itself
  (`Bitter.KeyCanShadowTempIndex`).
- **Other event implementations can yield units that are not keys.** `getUnitsOfTime` may
  return such a unit; `hash` then rejects it inside the pipeline callback, and `mark` fails
  with an error (`Bitter.Error.KeyTypeError`). `Bitter.TimeUnit.UnkeyedUnit` stands for such a
  unit.

## Model

All source paths are under `src/FreeAgent/Bitter/`.

| member | source | states |
|---|---|---|
| Digits.TwoDigits | src/FreeAgent/Bitter/UnitOfTime/Day.php:14-16 | Prints 0..99 as exactly two decimal digits that read back as the number. |
| Digits.FourDigits | src/FreeAgent/Bitter/UnitOfTime/Year.php:12 | Prints a year as exactly four decimal digits that read back as the year. |
| Calendar.IsoWeek | src/FreeAgent/Bitter/UnitOfTime/Week.php:12 | The `W` week number always lies between 1 and 53. |
| Calendar.IsoWeekCountsThursdays | src/FreeAgent/Bitter/UnitOfTime/Week.php:12 | The week number is 1 plus the number of whole weeks from the start of the year holding the date's Thursday to that Thursday. This is the ISO 8601 rule: week 1 holds the year's first Thursday. |
| Calendar.Timestamp | src/FreeAgent/Bitter/Bitter.php:113 | `getTimestamp()` of a UTC date: divided by 86400 it gives the days since 1970-01-01, and the remainder is the second of the day. |
| Calendar.LaterIsFieldOrder | src/FreeAgent/Bitter/Bitter.php:210 | For whole-second UTC dates, PHP's `$from > $to` (the model's `Calendar.Later`) holds when `to` comes before `from` in year, month, day, hour, minute, second order, and only then. |
| Calendar.EpochHasTimestampZero | src/FreeAgent/Bitter/Bitter.php:113 | The timestamp sent with EXPIREAT is 0 at 1970-01-01 00:00:00, which is a Thursday. |
| Labels.HourLabel | src/FreeAgent/Bitter/UnitOfTime/Hour.php:10-19 | The hour label is 13 characters with dashes at positions 4, 7 and 10. It begins with the day label of the same date. |
| Labels.DayLabel | src/FreeAgent/Bitter/UnitOfTime/Day.php:10-18 | The day label is 10 characters with dashes at positions 4 and 7. It begins with the month label. |
| Labels.WeekLabel | src/FreeAgent/Bitter/UnitOfTime/Week.php:10-13 | The week label is 8 characters, `YYYY-Wnn`. It begins with the calendar-year label. |
| Labels.MonthLabel | src/FreeAgent/Bitter/UnitOfTime/Month.php:10-13 | The month label is 7 characters with a dash at position 4. It begins with the year label. |
| Labels.YearLabel | src/FreeAgent/Bitter/UnitOfTime/Year.php:10-13 | The year label is four digits. |
| Labels.HourLabelRoundTrip | src/FreeAgent/Bitter/UnitOfTime/Hour.php:10-19 | Reading an hour label back gives the date's year, month, day and hour. |
| Labels.DayLabelRoundTrip | src/FreeAgent/Bitter/UnitOfTime/Day.php:10-18 | Reading a day label back gives the year, month and day. |
| Labels.WeekLabelRoundTrip | src/FreeAgent/Bitter/UnitOfTime/Week.php:10-13 | Reading a week label back gives the calendar year and the ISO week number. |
| Labels.MonthLabelRoundTrip | src/FreeAgent/Bitter/UnitOfTime/Month.php:10-13 | Reading a month label back gives the year and month. |
| Labels.YearLabelRoundTrip | src/FreeAgent/Bitter/UnitOfTime/Year.php:10-13 | Reading a year label back gives the year. |
| Labels.HourLabelIdentifiesHour | src/FreeAgent/Bitter/UnitOfTime/Hour.php:12-18 | Two dates share an hour label if and only if they agree on year, month, day and hour. |
| Labels.DayLabelIdentifiesDay | src/FreeAgent/Bitter/UnitOfTime/Day.php:12-17 | Two dates share a day label if and only if they are the same calendar day. |
| Labels.MonthLabelIdentifiesMonth | src/FreeAgent/Bitter/UnitOfTime/Month.php:12 | Two dates share a month label if and only if they are in the same month of the same year. |
| Labels.YearLabelIdentifiesYear | src/FreeAgent/Bitter/UnitOfTime/Year.php:12 | Two dates share a year label if and only if they are in the same year. |
| Labels.WeekLabelIdentifiesYearAndWeek | src/FreeAgent/Bitter/UnitOfTime/Week.php:12 | Two dates share a week label if and only if they have the same calendar year and the same ISO week number. |
| Labels.DayLabelExample | src/FreeAgent/Bitter/UnitOfTime/Day.php:10-18 | 2024-03-07 15:30 gets the day label `2024-03-07` and the hour label `2024-03-07-15`. |
| Labels.LateDecemberExample | src/FreeAgent/Bitter/UnitOfTime/Week.php:12 | 2024-12-30 is in ISO week 1 of 2025, yet its label is `2024-W01`. |
| Labels.EarlyJanuaryExample | src/FreeAgent/Bitter/UnitOfTime/Week.php:12 | 2021-01-01 is in ISO week 53 of 2020, and its label is `2021-W53`. |
| Labels.NewYearExample | src/FreeAgent/Bitter/UnitOfTime/Week.php:12 | 2024-01-01 is labelled `2024-W01`. |
| Labels.WeekLabelCollision | src/FreeAgent/Bitter/UnitOfTime/Week.php:10-13 | Two dates in different ISO weeks (different Mondays) print the same week label. |
| Labels.SameWeekSameLabel | src/FreeAgent/Bitter/UnitOfTime/Week.php:10-13 | Two dates of one calendar year in the same ISO week print the same week label. |
| Events.New | src/FreeAgent/Bitter/Event.php:21-24 | `new Event($name)` yields an event with a null key: `construct` is not PHP's constructor. |
| Events.Construct | src/FreeAgent/Bitter/Event.php:21-32 | After `construct($key)`, `getKey()` returns that key. |
| Events.Create | src/FreeAgent/Bitter/Event.php:54-61 | `Event::create` returns an Event argument itself, and an event with no key for anything else. |
| Events.CreateIsIdempotent | src/FreeAgent/Bitter/Event.php:54-61 | Applying `create` to what `create` returned changes nothing. |
| Events.NameOf | src/FreeAgent/Bitter/UnitOfTime/AbstractUnitOfTime.php:20 | A unit stores the event's key for an EventInterface argument and the raw argument otherwise. |
| Events.NewEventHasNoName | src/FreeAgent/Bitter/Event.php:21-32 | Units built from `new Event($name)` see a null name; only an explicit `construct($name)` gives them the name. |
| Keys.AggregationKeyText | src/FreeAgent/Bitter/Aggregation/AggregationKey.php:21-24 | The aggregation key prints the wrapped string followed by exactly `:aggr`. |
| Keys.KeyTextInjective | src/FreeAgent/Bitter/Key.php:22-25 | Two Keys print the same if and only if they hold the same value, so `Keys.KeyText` loses nothing. |
| Keys.AggregationKeyTextInjective | src/FreeAgent/Bitter/Aggregation/AggregationKey.php:21-24 | Two aggregation keys print the same if and only if they wrap the same string. |
| Keys.KeyAndAggregationKeyDiffer | src/FreeAgent/Bitter/Aggregation/AggregationKey.php:21-24 | A Key and an AggregationKey built from the same string never print the same. |
| UnitsOfTime.Create | src/FreeAgent/Bitter/UnitOfTime/AbstractUnitOfTime.php:18-22 | A new unit has the given class and date, the event's name, and a null expiry. |
| UnitsOfTime.GetExpires | src/FreeAgent/Bitter/UnitOfTime/Infinity.php:26-29 | Infinity always answers null; every other unit answers what was set. |
| UnitsOfTime.SetExpires | src/FreeAgent/Bitter/UnitOfTime/AbstractUnitOfTime.php:44-57 | After `setExpires(e)`, `getExpires()` returns `e` (null for Infinity). Class, name and date are unchanged. |
| UnitsOfTime.Modify | src/FreeAgent/Bitter/UnitOfTime/AbstractUnitOfTime.php:73-76 | `modify(d)` gives a unit of the same class and name at `d`, with its expiry back to null. |
| UnitsOfTime.EventUnits | src/FreeAgent/Bitter/Event.php:39-48 | `getUnitsOfTime` yields five units, keyed and ordered year, month, week, day, hour. Each is built from this event at the given date, and none is Infinity. |
| UnitsOfTime.UnitNameIsEventKey | src/FreeAgent/Bitter/UnitOfTime/AbstractUnitOfTime.php:20 | A unit built from an Event object reports that event's `getKey()`, null included, as its `getUnitOfTimeName()`, at every class and date. |
| UnitsOfTime.LabelHasNoColon | src/FreeAgent/Bitter/UnitOfTime/AbstractUnitOfTime.php:86-89 | No bucket label contains a colon. |
| UnitsOfTime.LabelIdentifiesBucket | src/FreeAgent/Bitter/UnitOfTime/AbstractUnitOfTime.php:81 | Two labels are equal if and only if the classes are equal and the dates fall in the same bucket of that class. |
| UnitsOfTime.ToString | src/FreeAgent/Bitter/UnitOfTime/AbstractUnitOfTime.php:86-97 | A unit's key (`getKey`, printed by `__toString`) starts with the printed event name, and the colon right after it is the key's last colon. |
| UnitsOfTime.KeyRoundTrip | src/FreeAgent/Bitter/UnitOfTime/AbstractUnitOfTime.php:86-97 | Splitting a unit's key at its last colon gives back the printed event name and the label, even when the name contains colons. |
| UnitsOfTime.KeyIdentifiesBucket | src/FreeAgent/Bitter/UnitOfTime/AbstractUnitOfTime.php:86-97 | Two units share a key if and only if their names print the same, their classes are equal and their dates fall in the same bucket. |
| UnitsOfTime.InfinityKeyIsConstant | src/FreeAgent/Bitter/UnitOfTime/Infinity.php:14-17 | Every Infinity unit of an event has the key `<event>:inf`. |
| UnitsOfTime.UnnamedEventKey | src/FreeAgent/Bitter/UnitOfTime/AbstractUnitOfTime.php:20 | A unit built from `new Event($name)` has the key `:<label>`, whatever the name. |
| Aggregations.Create | src/FreeAgent/Bitter/Aggregation/Aggregation.php:19-35 | The wrapper holds exactly the given unit; its getters and key are stated by `Aggregations.CreateReadsInner`. |
| Aggregations.Modify | src/FreeAgent/Bitter/Aggregation/Aggregation.php:41-47 | `modify(d)` wraps a unit of the same class and name at `d`, with no expiry. |
| Aggregations.CreateReadsInner | src/FreeAgent/Bitter/Aggregation/Aggregation.php:55-78 | A wrapper answers name, date, expiry and label from its inner unit, and its key wraps the inner key. |
| Aggregations.KeyIsInnerKeyWithSuffix | src/FreeAgent/Bitter/Aggregation/Aggregation.php:70-86 | The wrapper's key is the inner unit's key plus `:aggr`, so the two never coincide. |
| Aggregations.KeyIdentifiesInner | src/FreeAgent/Bitter/Aggregation/Aggregation.php:70-86 | Two wrappers share a key if and only if their inner units do. |
| BitStore.Combine | src/FreeAgent/Bitter/Bitter.php:178 | BITOP puts an id in the result exactly when the operation (AND, OR or XOR) holds of its presence in the two sources. |
| Bitter.Hash | src/FreeAgent/Bitter/Bitter.php:408-416 | Units of time (including Aggregation wrappers) get the key prefix; every other key gets the temporary prefix. The rest of the hashed key is the key's string form. |
| Bitter.DefaultPrefixesSeparate | src/FreeAgent/Bitter/Bitter.php:28-38 | Under the default prefixes, no hashed unit of time equals any hashed temporary key. |
| Bitter.IndexIsNeverAUnitKey | src/FreeAgent/Bitter/Bitter.php:119 | No unit of time hashes to the index set `<prefix>keys`, whatever the prefix. |
| Bitter.KeyCanShadowTempIndex | src/FreeAgent/Bitter/Bitter.php:179 | `Key('keys')` hashes to the temporary index set itself. |
| Bitter.ExpireCommand | src/FreeAgent/Bitter/Bitter.php:111-117 | A DateTime expiry gives EXPIREAT of the unit's key at that date's timestamp; an expiry in seconds gives EXPIRE of the key for those seconds. |
| Bitter.UnitPlan | src/FreeAgent/Bitter/Bitter.php:92-119 | A unit whose DateTime expiry is before `now` issues nothing. A unit that is not a key fails. Otherwise the commands are: a ZINCRBY of 1.0 on an accumulator or a SETBIT on a bit-vector; then the expiry command when the expiry is truthy; then the SADD of the key into the index. |
| Bitter.RelativeExpiryIsNeverSkipped | src/FreeAgent/Bitter/Bitter.php:95-117 | An expiry in seconds never skips a unit. An expiry of 0 adds no expiry command; any other value adds one. |
| Bitter.InfinityIsNeverSkipped | src/FreeAgent/Bitter/UnitOfTime/Infinity.php:26-29 | An Infinity unit is never skipped and never given an expiry, whatever was set on it: `mark` issues only its SETBIT and its SADD into the index. |
| Bitter.UnitPlanKeys | src/FreeAgent/Bitter/Bitter.php:99-119 | A unit that is not skipped writes its hashed key once and indexes it once; a skipped unit does neither. |
| Bitter.MarkPlan | src/FreeAgent/Bitter/Bitter.php:88-120 | The pipeline fails if and only if some unit is rejected. Otherwise the written keys, and the keys added to the index, are the non-skipped units' hashed keys in order. |
| Bitter.MarkPlanAppend | src/FreeAgent/Bitter/Bitter.php:88-120 | The pipeline over two lists of units succeeds exactly when each list's pipeline does, and then issues the first list's commands followed by the second's. |
| Bitter.MarkPlanOfOne | src/FreeAgent/Bitter/Bitter.php:92-119 | The pipeline over one unit is that unit's commands. With `Bitter.MarkPlanAppend`, the pipeline is each unit's write of the id, expiry command and SADD, in unit order. |
| Bitter.MarkedUnits | src/FreeAgent/Bitter/Bitter.php:78-90 | `mark` walks five plain units of the event at the given date, year to hour. |
| Bitter.Mark | src/FreeAgent/Bitter/Bitter.php:76-125 | `mark` never fails on `Event`: it issues, for year, month, week, day and hour, a SETBIT of the id on that bucket's key and the key's SADD into the index. A raw name becomes a new `Event` first. |
| Bitter.MarkByEvent | src/FreeAgent/Bitter/Bitter.php:76-125 | `mark` issues exactly ten commands: for year, month, week, day and hour, the SETBIT of the id on that bucket's key, then its SADD into the index. |
| Bitter.MarkIgnoresRawName | src/FreeAgent/Bitter/Bitter.php:80 | `mark` with any raw name issues the same commands as with an event that has no key. |
| Bitter.MarkEffect | src/FreeAgent/Bitter/Bitter.php:88-120 | After `mark`, the id's bit is set in each of the five bucket keys, and every other bit-vector is unchanged. |
| Bitter.Trunc | src/FreeAgent/Bitter/Bitter.php:158 | PHP's `(int)` on a float truncates toward zero. |
| Bitter.Total | src/FreeAgent/Bitter/Bitter.php:161-166 | The sum of the int-cast scores is non-negative when all scores are, and at most 0 when all scores are below 1. |
| Bitter.In | src/FreeAgent/Bitter/Bitter.php:135-143 | On an accumulator, `in` holds if and only if the id has a non-zero score. On a bit-vector, it holds if and only if the id's bit is set. |
| Bitter.Count | src/FreeAgent/Bitter/Bitter.php:153-170 | On a bit-vector, `count` is the number of set bits. On an accumulator, a truthy id gives its int-cast score (0 when absent); a null or zero id gives the sum of all int-cast scores. |
| Bitter.InAgreesWithCount | src/FreeAgent/Bitter/Bitter.php:135-170 | On an accumulator with a whole-number score for a non-zero id, `count` is that score, and `in` holds if and only if `count` is non-zero. |
| Bitter.MarkedIdIsCounted | src/FreeAgent/Bitter/Bitter.php:135-170 | On a bit-vector, a marked id makes `count` at least 1. |
| Bitter.MarkThenIn | src/FreeAgent/Bitter/Bitter.php:76-143 | After `mark`, `in` holds on the event's hour bucket for that date, and its `count` is positive, whatever the store held before. |
| Bitter.BitOpResult | src/FreeAgent/Bitter/Bitter.php:172-198 | With a positive timeout, the destination holds the operation applied to the two sources as they were before, even when the destination is one of them. With a timeout of 0 or less, the destination is gone. No other bit-vector changes. |
| Bitter.BitOpPlan | src/FreeAgent/Bitter/Bitter.php:172-183 | The only set member a `bitOp*` call adds is the hashed destination, and only into the temporary index. |
| Bitter.BitOpAnd | src/FreeAgent/Bitter/Bitter.php:185-188 | With a positive timeout the destination holds the ids in both sources as they were before; with 0 or less it is gone. No other bit-vector changes. |
| Bitter.BitOpOr | src/FreeAgent/Bitter/Bitter.php:190-193 | As `bitOpAnd`, with the ids in either source. |
| Bitter.BitOpXor | src/FreeAgent/Bitter/Bitter.php:195-198 | As `bitOpAnd`, with the ids in exactly one source. |
| DateRange.ArrayDiff | src/FreeAgent/Bitter/Bitter.php:224-227 | `array_diff` keeps exactly the entries, with their indices, whose value is absent from the other list, in index order. |
| DateRange.ArrayDiffsDifferIffSetsDiffer | src/FreeAgent/Bitter/Bitter.php:224-227 | The two `array_diff` results differ if and only if the two listings do not hold the same labels. |
| DateRange.Aligned | src/FreeAgent/Bitter/Bitter.php:219-232 | The dates of one granularity are the `from`-aligned period's, followed by the `to`-aligned period's when the two listings hold different labels. |
| DateRange.RangeUnits | src/FreeAgent/Bitter/Bitter.php:219-270 | One unit per bucket of the range, of that bucket's class and date: hours, then days, then months, then years. |
| DateRange.BitDateRange | src/FreeAgent/Bitter/Bitter.php:208-276 | Fails with an invalid-range error if and only if `from` is later than `to`. Otherwise it issues a DEL of the destination first, then for each bucket in order the three commands of `bitOpOr($destKey, $unit, $destKey)`, and the SADD into the temporary index and the EXPIRE last. |
| DateRange.OrAllBlock | src/FreeAgent/Bitter/Bitter.php:219-270 | Block `i` of the OR commands is `bitOpOr` of bucket `i` into the destination. |
| DateRange.RangePlanIsUnion | src/FreeAgent/Bitter/Bitter.php:216-273 | With a positive timeout and a destination that is not one of the buckets, the destination ends with the union of the buckets' bits as they were before. Every other bit-vector is unchanged. |
| DateRange.BitDateRangeIsUnion | src/FreeAgent/Bitter/Bitter.php:208-276 | The same union result for `bitDateRange` over the range's buckets, whenever the range is valid. |
| DateRange.DefaultBitDateRangeIsUnion | src/FreeAgent/Bitter/Bitter.php:30-32 | Under the default prefixes and timeout, every valid range yields the union: the destination can never be one of the buckets. |
| DateRange.AggregationKeys | src/FreeAgent/Bitter/Bitter.php:349-353 | Each bucket is addressed as `<prefix><unit key>:aggr`. |
| DateRange.AggregationDateRange | src/FreeAgent/Bitter/Bitter.php:279-361 | A missing `to` means `now`. Fails if and only if `from` is later. Otherwise: DEL, one ZUNIONSTORE into the destination over every bucket's accumulator, SADD into the temporary index, and EXPIRE. |
| DateRange.AggregationSources | src/FreeAgent/Bitter/Bitter.php:293-355 | The ZUNIONSTORE counts and names every bucket once, in order (hours, days, months, years), each as that bucket's accumulator key for the event's name. |
| DateRange.AccumulatorOfUnit | src/FreeAgent/Bitter/Bitter.php:352 | An Aggregation around a unit hashes to `<prefix><name>:<label>:aggr`. |
| BitDecoding.BitOffset | src/FreeAgent/Bitter/Bitter.php:392 | The id of string position `p` is in the same byte, with the bit order inside the byte reversed. |
| BitDecoding.BitOffsetInvolution | src/FreeAgent/Bitter/Bitter.php:392 | Applying the position-to-id mapping twice gives back the position. |
| BitDecoding.BitOffsetInjective | src/FreeAgent/Bitter/Bitter.php:392 | Two positions give the same id if and only if they are the same position. |
| BitDecoding.FirstOne | src/FreeAgent/Bitter/Bitter.php:390 | `strpos($data, '1')` finds the first '1', or reports none when there is no '1'. |
| BitDecoding.DecodedMembers | src/FreeAgent/Bitter/Bitter.php:389-393 | An id is decoded if and only if its position is within the string and holds '1'. |
| BitDecoding.DecodedDistinct | src/FreeAgent/Bitter/Bitter.php:389-393 | No id is decoded twice. |
| BitDecoding.Sort | src/FreeAgent/Bitter/Bitter.php:395 | `sort` returns an ascending permutation of its input. |
| BitDecoding.GetIds | src/FreeAgent/Bitter/Bitter.php:385-397 | `getIds` returns, strictly ascending, exactly the ids whose bit is '1', one per '1'. |
| Cleanup.Chunks | src/FreeAgent/Bitter/Bitter.php:428 | `array_chunk(…, 100)` gives back the list when the chunks are joined. For n keys there are (n + 99) div 100 chunks of 1 to 100 keys, all full but the last. |
| Cleanup.Dels | src/FreeAgent/Bitter/Bitter.php:430-432 | One DEL per chunk, in order. |
| Cleanup.RemovalPlan | src/FreeAgent/Bitter/Bitter.php:428-432 | One DEL per chunk of at most 100 keys, (n + 99) div 100 of them for n members; the keys they name, in order, are exactly the member list. |
| Cleanup.RemoveAll | src/FreeAgent/Bitter/Bitter.php:426-435 | `removeAll` issues only DELs of 1 to 100 keys, and the keys they name are exactly what SMEMBERS gives for the main index. |
| Cleanup.RemoveTemp | src/FreeAgent/Bitter/Bitter.php:440-449 | `removeTemp` does the same for the temporary index. |
| Cleanup.DelsEffect | src/FreeAgent/Bitter/Bitter.php:430-432 | The DELs empty exactly the keys the chunks name. |
| Cleanup.RemovalClearsMembers | src/FreeAgent/Bitter/Bitter.php:426-435 | After removal, a key is empty if it is in the index's member list; otherwise its bits are unchanged. |
| Cleanup.IndexIsKept | src/FreeAgent/Bitter/Bitter.php:426-449 | Unless an index lists itself, `removeAll` and `removeTemp` issue only DELs, and none names that index. |

## Left out

- The Redis client, `getRedisClient`/`setRedisClient` and the pipeline mechanics: a write is the
  list of commands it would issue, and the fire-and-forget pipeline is that list issued in
  order. The client runs the pipeline callback before it sends anything, so a callback that
  throws sends nothing; a failed plan therefore stands for no command at all.
- Redis range and type errors. Ids are unbounded `nat`s, but Redis rejects a bit offset of
  2^32 or more (the id is documented as "not huge" at Bitter.php:72). In `mark`'s
  fire-and-forget pipeline that error is lost and the bit is never set, so `Bitter.MarkEffect`
  and `Bitter.MarkThenIn` hold only for ids below 2^32; `in` and `count` would raise instead.
  Likewise `bitOp*` accepts aggregation keys as operands and the model reads them as empty
  bit-vectors, where Redis answers BITOP on an existing sorted set with a WRONGTYPE error.
- `Event::__toString` (Event.php:66-69): nothing in this model turns an Event into a string;
  units read the event through `getKey()`.
- `bitset_to_string` (`bitsetToString`), which is not part of this model. `BitDecoding.GetIds`
  starts from its result, a string of '0' and '1' characters.
- `getIds` on aggregation keys: it returns ZRANGE's result unchanged, and sorted-set ordering
  is not modelled.
- `DatePeriod::createForHour/Day/Month/Year` and `toArray`: their classes are not part of this
  model. They are parameters (`DateRange.Enumerators`), so which buckets a range covers is
  taken as given.
- `getInterval` on every unit: nothing in the core reads it.
- The wall clock: `now` in `mark` and the default `to` of `aggregationDateRange` are
  parameters. These defaults are left to the caller, which always passes a date: the default
  `$dateTime` of `mark` (Bitter.php:78), the default date of a unit's constructor
  (AbstractUnitOfTime.php:21), and `modify(null)` (AbstractUnitOfTime.php:73-76), which
  reaches that constructor default.
- Time zones and daylight saving: dates are civil fields in UTC. `Calendar.Timestamp` equals
  PHP's `getTimestamp()` only for UTC dates; in any other zone the labels and the EXPIREAT
  timestamps would disagree by the zone's offset.
- Sub-second precision: PHP's DateTime carries microseconds, but the model keeps whole seconds.
  `Calendar.Later` (the `$now > $expires` test at Bitter.php:95, `$from > $to` at Bitter.php:210
  and 284) therefore treats two dates in the same second as equal, where PHP may order them.
- Years outside 1000..9999 are excluded. `format('Y')` zero-pads years below 1000 to four
  digits and prints five or more digits above 9999; the labels and their readers model only
  four-digit years.
- PHP integer overflow in `count`: the `(int)` cast of a score and the `+=` total
  (Bitter.php:158-166) are unbounded integers here. In PHP the cast of a float beyond the
  64-bit range is not well defined, and an overflowing `+=` turns the sum into a float.
- Units of time as keys: the model takes every plain unit of time to be a bit-vector
  KeyInterface. `KeyInterface` is not part of this model, and the interfaces in the source do
  not say so: `EventInterface` (EventInterface.php:7) extends nothing, `UnitOfTimeInterface`
  extends only `EventInterface` (UnitOfTime/UnitOfTimeInterface.php:10), and
  `AbstractUnitOfTime` implements only `UnitOfTimeInterface` (UnitOfTime/AbstractUnitOfTime.php:12). If units were not keys,
  `hash(KeyInterface $key)` (Bitter.php:99, 408) would reject every unit, and `mark` and
  `bitDateRange` would always fail.
- Exception messages: only the error kind is kept.
- The effect of ZINCRBY, ZUNIONSTORE, SADD and EXPIREAT on the store: only bit-vectors are
  transformed, and sorted sets are only read. An EXPIRE with a positive timeout is modelled as
  no change, since the key stays readable until the timeout.
- `Bitter.In`: the truthiness of the ZSCORE reply string is modelled as the score being
  non-zero. PHP treats a reply such as `"-0"` as true.
- `Bitter.Total`: states only the sign bounds of the sum. Its exact value is the body itself,
  and `Bitter.Count` is stated in terms of it.
- `DateRange.RangePlanIsUnion`: requires a positive timeout and a destination that is not one
  of the buckets. Otherwise the result is what `Bitter.BitOpResult` gives step by step.
- `DateRange.BitDateRangeIsUnion`: under the same two conditions as
  `DateRange.RangePlanIsUnion`.
- `in`, `count` and `bitOp*` on values that are not keys: the model requires a key. For `in`
  and `count`, the `KeyInterface` type hint (Bitter.php:135, 153) rejects other values before
  the body runs. The `bitOp*` methods have no type hint; a non-key is rejected by the
  type hint of `hash` (Bitter.php:408) in the body, before any command is issued.
- `Keys.KeyText`, `Labels.InfinityLabel`, `UnitsOfTime.GetKey`, `UnitsOfTime.GetUnitOfTimeName`,
  `UnitsOfTime.GetDateTime`, `Events.GetKey`, `Aggregations.GetKey`, `Aggregations.ToString`,
  `Aggregations.GetUnitOfTimeName`, `Aggregations.GetDateTime`, `Aggregations.GetExpires` and
  `Aggregations.GetDateTimeFormated` carry no contract of their own: each only reads a field,
  delegates to the wrapped unit or joins two strings. Their properties are stated by
  `Keys.KeyTextInjective`, `UnitsOfTime.InfinityKeyIsConstant`, `UnitsOfTime.ToString`,
  `UnitsOfTime.UnitNameIsEventKey`, `UnitsOfTime.Create`, `Events.Construct`,
  `Aggregations.CreateReadsInner` and `Aggregations.KeyIsInnerKeyWithSuffix`.
- Event classes other than `Event`: they are represented only by the units they may yield.

=== FILE: aggregation.dfy ===
/** Aggregation: a wrapper that turns a unit of time into a score-accumulator key. It reads
    everything from the wrapped unit and only changes the key, by wrapping it in an
    AggregationKey. */
module Aggregations {
  import opened Wrappers
  import opened Calendar
  import opened Keys
  import opened UnitsOfTime

  datatype Aggregation = Aggregation(inner: UnitOfTime)

  /** `Aggregation::create($unit)`. */
  function Create(u: UnitOfTime): (a: Aggregation)
    ensures a.inner == u
  {
    Aggregation(u)
  }

  /** `modify($d)`: the wrapper around the inner unit's `modify`. */
  function Modify(a: Aggregation, d: DateTime): (r: Aggregation)
    ensures r.inner.granularity == a.inner.granularity && r.inner.eventName == a.inner.eventName
    ensures r.inner.dateTime == d && GetExpires(r) == NoExpiry
  {
    Aggregation(UnitsOfTime.Modify(a.inner, d))
  }

  function GetUnitOfTimeName(a: Aggregation): Option<string> {
    UnitsOfTime.GetUnitOfTimeName(a.inner)
  }

  function GetDateTime(a: Aggregation): DateTime {
    UnitsOfTime.GetDateTime(a.inner)
  }

  function GetExpires(a: Aggregation): Expiry {
    UnitsOfTime.GetExpires(a.inner)
  }

  function GetDateTimeFormated(a: Aggregation): string {
    Label(a.inner.granularity, a.inner.dateTime)
  }

  /** `getKey`: an AggregationKey around the inner unit's Key. */
  function GetKey(a: Aggregation): AggregationKey {
    AggregationKey(KeyText(UnitsOfTime.GetKey(a.inner)))
  }

  /** `__toString`. */
  function ToString(a: Aggregation): string {
    AggregationKeyText(GetKey(a))
  }

  /** A wrapper made by `create` answers every getter with the wrapped unit's own name, date,
      expiry and label, and its key wraps the unit's key. */
  lemma CreateReadsInner(u: UnitOfTime)
    ensures GetUnitOfTimeName(Create(u)) == u.eventName
    ensures GetDateTime(Create(u)) == u.dateTime
    ensures GetExpires(Create(u)) == UnitsOfTime.GetExpires(u)
    ensures GetDateTimeFormated(Create(u)) == Label(u.granularity, u.dateTime)
    ensures GetKey(Create(u)).wrapped == UnitsOfTime.ToString(u)
  {
  }

  /** The wrapper's key is the inner key followed by `:aggr`, so it never equals the inner
      unit's own key. */
  lemma KeyIsInnerKeyWithSuffix(a: Aggregation)
    ensures ToString(a) == UnitsOfTime.ToString(a.inner) + ":aggr"
    ensures ToString(a) != UnitsOfTime.ToString(a.inner)
  {
  }

  /** Two aggregations share a key exactly when their inner units do, so the accumulators are
      bucketed just like the bit-vectors. */
  lemma KeyIdentifiesInner(a: Aggregation, b: Aggregation)
    ensures ToString(a) == ToString(b) <==> UnitsOfTime.ToString(a.inner) == UnitsOfTime.ToString(b.inner)
  {
    AggregationKeyTextInjective(GetKey(a), GetKey(b));
  }
}

=== FILE: bit_decoding.dfy ===
/** `getIds` on a bit-vector key: the stored bitmap, already spelled out as a string of '0' and
    '1' characters (the helper that does that is not part of this model), is scanned with
    `strpos` for the next '1'; each '1' at position p is cleared and becomes the id
    `(p div 8) * 8 + |7 - p mod 8|`, and the ids are sorted at the end. */
module BitDecoding {
  import opened Wrappers

  function Abs(x: int): nat {
    if x < 0 then -x else x
  }

  /** The id of the bit at string position `p`: same byte, bit order reversed inside it. */
  function BitOffset(p: nat): (id: nat)
    ensures id / 8 == p / 8
    ensures id % 8 == 7 - p % 8
  {
    (p / 8) * 8 + Abs(7 - p % 8)
  }

  /** Reversing the bit order twice gives back the position, so distinct positions give
      distinct ids. */
  lemma BitOffsetInvolution(p: nat)
    ensures BitOffset(BitOffset(p)) == p
  {
    var id := BitOffset(p);
    assert id == (id / 8) * 8 + id % 8;
    assert p == (p / 8) * 8 + p % 8;
  }

  lemma BitOffsetInjective(p: nat, q: nat)
    ensures BitOffset(p) == BitOffset(q) <==> p == q
  {
    BitOffsetInvolution(p);
    BitOffsetInvolution(q);
  }

  /** `strpos($data, '1')`: the first position holding '1', or nothing (PHP's `false`). */
  function FirstOne(s: string): (r: Option<nat>)
    ensures r.Some? ==> r.value < |s| && s[r.value] == '1' && forall j :: 0 <= j < r.value ==> s[j] != '1'
    ensures r.None? ==> forall j :: 0 <= j < |s| ==> s[j] != '1'
  {
    if s == [] then None
    else if s[0] == '1' then Some(0)
    else match FirstOne(s[1..])
         case None => None
         case Some(p) => Some(p + 1)
  }

  /** The number of '1' characters. */
  function OnesCount(s: string): nat {
    if s == [] then 0 else OnesCount(s[..|s| - 1]) + (if s[|s| - 1] == '1' then 1 else 0)
  }

  /** The ids of the '1' characters, position by position: the reference the scan is held to. */
  function Decoded(s: string): (ids: seq<nat>)
    ensures |ids| == OnesCount(s)
  {
    if s == [] then []
    else Decoded(s[..|s| - 1]) + (if s[|s| - 1] == '1' then [BitOffset(|s| - 1)] else [])
  }

  /** An id is decoded exactly when the bit it came from is a '1' within the string. */
  lemma {:induction false} DecodedMembers(s: string, x: nat)
    ensures x in Decoded(s) <==> BitOffset(x) < |s| && s[BitOffset(x)] == '1'
  {
    if s != [] {
      var n := |s| - 1;
      DecodedMembers(s[..n], x);
      BitOffsetInvolution(x);
      BitOffsetInvolution(n);
      assert x == BitOffset(n) <==> BitOffset(x) == n;
    }
  }

  predicate Distinct(s: seq<nat>) {
    forall i, j :: 0 <= i < j < |s| ==> s[i] != s[j]
  }

  /** No id is decoded twice. */
  lemma {:induction false} DecodedDistinct(s: string)
    ensures Distinct(Decoded(s))
  {
    if s != [] {
      var n := |s| - 1;
      DecodedDistinct(s[..n]);
      if s[n] == '1' {
        var front := Decoded(s[..n]);
        DecodedMembers(s[..n], BitOffset(n));
        BitOffsetInvolution(n);
        assert BitOffset(n) !in front;
      }
    }
  }

  /** Positions without a '1' add nothing to the decoding. */
  lemma {:induction false} DecodedSkipsZeros(s: string, lo: nat, hi: nat)
    requires lo <= hi <= |s|
    requires forall j :: lo <= j < hi ==> s[j] != '1'
    ensures Decoded(s[..hi]) == Decoded(s[..lo])
    decreases hi
  {
    if lo < hi {
      assert s[..hi][..hi - 1] == s[..hi - 1];
      DecodedSkipsZeros(s, lo, hi - 1);
    }
  }

  predicate Sorted(s: seq<nat>) {
    forall i, j :: 0 <= i < j < |s| ==> s[i] <= s[j]
  }

  function Insert(x: nat, s: seq<nat>): (r: seq<nat>)
    requires Sorted(s)
    ensures Sorted(r) && multiset(r) == multiset(s) + multiset{x}
  {
    if s == [] then [x]
    else if x <= s[0] then [x] + s
    else
      var rest := Insert(x, s[1..]);
      assert s == [s[0]] + s[1..];
      LowerBound(s[0], x, s[1..], rest);
      ConsSorted(s[0], rest);
      assert multiset([s[0]] + rest) == multiset{s[0]} + multiset(rest);
      [s[0]] + rest
  }

  /** Putting a lower bound in front of a sorted list keeps it sorted. */
  lemma ConsSorted(x: nat, s: seq<nat>)
    requires Sorted(s) && forall k :: 0 <= k < |s| ==> x <= s[k]
    ensures Sorted([x] + s)
  {
    var r := [x] + s;
    forall i, j | 0 <= i < j < |r|
      ensures r[i] <= r[j]
    {
      assert r[j] == s[j - 1];
      if i > 0 {
        assert r[i] == s[i - 1];
      }
    }
  }

  /** Every element of a permutation of `t` plus `x` is at least `lo` when all of those are. */
  lemma LowerBound(lo: nat, x: nat, t: seq<nat>, r: seq<nat>)
    requires multiset(r) == multiset(t) + multiset{x}
    requires lo <= x && forall k :: 0 <= k < |t| ==> lo <= t[k]
    ensures forall k :: 0 <= k < |r| ==> lo <= r[k]
  {
    forall k | 0 <= k < |r|
      ensures lo <= r[k]
    {
      assert r[k] in multiset(r);
      if r[k] != x {
        assert r[k] in multiset(t);
        assert r[k] in t;
      }
    }
  }

  /** PHP's `sort()` on a list of integers, as an insertion sort. */
  function Sort(s: seq<nat>): (r: seq<nat>)
    ensures Sorted(r) && multiset(r) == multiset(s)
  {
    if s == [] then []
    else
      assert s == [s[0]] + s[1..];
      Insert(s[0], Sort(s[1..]))
  }

  /** A sorted list with no repeated value is strictly ascending. */
  lemma SortedDistinct(s: seq<nat>, t: seq<nat>)
    requires Sorted(s) && Distinct(t) && multiset(s) == multiset(t)
    ensures forall i, j :: 0 <= i < j < |s| ==> s[i] < s[j]
  {
    forall i, j | 0 <= i < j < |s|
      ensures s[i] < s[j]
    {
      if s[i] == s[j] {
        assert s == s[..j] + s[j..];
        assert s[i] in multiset(s[..j]) && s[j] in multiset(s[j..]);
        assert multiset(t)[s[i]] >= 2;
        DistinctCountsOnce(t, s[i]);
        assert false;
      }
    }
  }

  lemma {:induction false} DistinctCountsOnce(t: seq<nat>, v: nat)
    requires Distinct(t)
    ensures multiset(t)[v] <= 1
  {
    if t != [] {
      assert t == [t[0]] + t[1..];
      assert Distinct(t[1..]);
      DistinctCountsOnce(t[1..], v);
      if t[0] == v {
        assert v !in t[1..];
      }
    }
  }

  /** `getIds` on a bit-vector key, given the bitmap as a '0'/'1' string: one id per '1',
      each the BitOffset of its position, in ascending order. */
  method GetIds(bitset: string) returns (ids: seq<nat>)
    ensures forall i, j :: 0 <= i < j < |ids| ==> ids[i] < ids[j]
    ensures forall x :: x in ids <==> BitOffset(x) < |bitset| && bitset[BitOffset(x)] == '1'
    ensures |ids| == OnesCount(bitset)
  {
    var data := bitset;
    var found: seq<nat> := [];
    ghost var scanned: nat := 0;
    var next := FirstOne(data);
    while next.Some?
      invariant |data| == |bitset| && scanned <= |bitset|
      invariant forall j :: 0 <= j < scanned ==> data[j] != '1'
      invariant forall j :: scanned <= j < |data| ==> data[j] == bitset[j]
      invariant found == Decoded(bitset[..scanned])
      invariant next == FirstOne(data)
      decreases |bitset| - scanned
    {
      var pos := next.value;
      var cleared := data[pos := '0'];
      ScanStep(bitset, data, cleared, scanned, pos);
      data := cleared;
      found := found + [BitOffset(pos)];
      scanned := pos + 1;
      next := FirstOne(data);
    }
    ScanDone(bitset, data, scanned);
    ids := Sort(found);
    SortedDecoding(bitset, ids);
  }

  /** Clearing the first '1' at `pos` extends the decoded prefix by that bit's id. */
  lemma ScanStep(bitset: string, data: string, cleared: string, scanned: nat, pos: nat)
    requires |data| == |bitset| && scanned <= |bitset|
    requires forall j :: 0 <= j < scanned ==> data[j] != '1'
    requires forall j :: scanned <= j < |data| ==> data[j] == bitset[j]
    requires FirstOne(data) == Some(pos) && cleared == data[pos := '0']
    ensures scanned <= pos < |bitset| && |cleared| == |bitset|
    ensures forall j :: 0 <= j < pos + 1 ==> cleared[j] != '1'
    ensures forall j :: pos + 1 <= j < |cleared| ==> cleared[j] == bitset[j]
    ensures Decoded(bitset[..pos + 1]) == Decoded(bitset[..scanned]) + [BitOffset(pos)]
  {
    assert data[pos] == '1';
    assert forall j :: scanned <= j < pos ==> bitset[j] != '1' by {
      forall j | scanned <= j < pos
        ensures bitset[j] != '1'
      {
        assert data[j] == bitset[j] && data[j] != '1';
      }
    }
    DecodedStep(bitset, scanned, pos);
  }

  lemma DecodedStep(bitset: string, scanned: nat, pos: nat)
    requires scanned <= pos < |bitset| && bitset[pos] == '1'
    requires forall j :: scanned <= j < pos ==> bitset[j] != '1'
    ensures Decoded(bitset[..pos + 1]) == Decoded(bitset[..scanned]) + [BitOffset(pos)]
  {
    DecodedSkipsZeros(bitset, scanned, pos);
    assert bitset[..pos + 1][..pos] == bitset[..pos];
  }

  /** Once no '1' is left, the decoded prefix is the whole decoding. */
  lemma ScanDone(bitset: string, data: string, scanned: nat)
    requires |data| == |bitset| && scanned <= |bitset|
    requires forall j :: scanned <= j < |data| ==> data[j] == bitset[j]
    requires FirstOne(data) == None
    ensures Decoded(bitset[..scanned]) == Decoded(bitset)
  {
    DecodedSkipsZeros(bitset, scanned, |bitset|);
    assert bitset[..|bitset|] == bitset;
  }

  /** Sorting the decoded ids gives the ascending list of ids of the '1' bits. */
  lemma SortedDecoding(bitset: string, ids: seq<nat>)
    requires Sorted(ids) && multiset(ids) == multiset(Decoded(bitset))
    ensures forall i, j :: 0 <= i < j < |ids| ==> ids[i] < ids[j]
    ensures forall x :: x in ids <==> BitOffset(x) < |bitset| && bitset[BitOffset(x)] == '1'
    ensures |ids| == OnesCount(bitset)
  {
    DecodedDistinct(bitset);
    SortedDistinct(ids, Decoded(bitset));
    DecodedIdsAre(bitset, ids);
    assert |multiset(ids)| == |multiset(Decoded(bitset))|;
  }

  lemma DecodedIdsAre(bitset: string, ids: seq<nat>)
    requires multiset(ids) == multiset(Decoded(bitset))
    ensures forall x :: x in ids <==> BitOffset(x) < |bitset| && bitset[BitOffset(x)] == '1'
  {
    forall x
      ensures x in ids <==> BitOffset(x) < |bitset| && bitset[BitOffset(x)] == '1'
    {
      DecodedMembers(bitset, x);
      SameMembers(ids, Decoded(bitset), x);
    }
  }

  lemma SameMembers(s: seq<nat>, t: seq<nat>, x: nat)
    requires multiset(s) == multiset(t)
    ensures x in s <==> x in t
  {
    assert x in s <==> x in multiset(s);
    assert x in t <==> x in multiset(t);
  }
}

=== FILE: bitter.dfy ===
/** The Bitter engine: key hashing, the `mark` write plan, the `in`/`count` queries and the
    bit operations. The Redis client is replaced by values: a write is the list of commands it
    would issue, and a read is a function of an abstract store. */
module Bitter {
  import opened Wrappers
  import opened Calendar
  import opened Events
  import opened Keys
  import opened UnitsOfTime
  import Aggregations
  import opened Commands
  import opened BitStore

  /** The constructor's configuration (the client aside). */
  datatype Config = Config(prefixKey: string, prefixTempKey: string, expireTimeout: int)

  const DefaultConfig: Config := Config("bitter:", "bitter_temp:", 60)

  /** The set that indexes every unit key written by `mark`. */
  function IndexKey(cfg: Config): string {
    cfg.prefixKey + "keys"
  }

  /** The set that indexes every temporary destination key. */
  function TempIndexKey(cfg: Config): string {
    cfg.prefixTempKey + "keys"
  }

  /** What `getUnitsOfTime` may yield: a plain unit (a bit-vector key), an Aggregation (a
      score accumulator), or a unit of some other EventInterface implementation that is
      neither kind of key. */
  datatype TimeUnit =
    | BitUnit(unit: UnitOfTime)
    | AggregationUnit(aggregation: Aggregations.Aggregation)
    | UnkeyedUnit(other: UnitOfTime)

  /** What `hash`, `in`, `count` and `bitOp` receive. */
  datatype Operand =
    | OfUnit(timeUnit: TimeUnit)
    | OfKey(key: Key)
    | OfAggregationKey(aggregationKey: AggregationKey)

  /** KeyInterface without AggregationKeyInterface, AggregationKeyInterface, or neither. */
  datatype KeyKind = BitVector | Accumulator | NotAKey

  datatype Error =
    | KeyTypeError      // a value that is not a KeyInterface reached `hash`
    | InvalidRange      // `from` is later than `to`

  function Kind(o: Operand): KeyKind {
    match o
    case OfUnit(BitUnit(_)) => BitVector
    case OfUnit(AggregationUnit(_)) => Accumulator
    case OfUnit(UnkeyedUnit(_)) => NotAKey
    case OfKey(_) => BitVector
    case OfAggregationKey(_) => Accumulator
  }

  predicate IsKey(o: Operand) {
    Kind(o) != NotAKey
  }

  /** The string conversion `hash` applies to a key. */
  function Text(o: Operand): string
    requires IsKey(o)
  {
    match o
    case OfUnit(BitUnit(u)) => UnitsOfTime.ToString(u)
    case OfUnit(AggregationUnit(a)) => Aggregations.ToString(a)
    case OfUnit(UnkeyedUnit(_)) => assert false; ""
    case OfKey(k) => KeyText(k)
    case OfAggregationKey(k) => AggregationKeyText(k)
  }

  /** `hash`: units of time (plain units and Aggregation wrappers) take the key prefix, every
      other key the temporary prefix. */
  function Hash(cfg: Config, o: Operand): (h: string)
    requires IsKey(o)
    ensures o.OfUnit? ==> |h| == |cfg.prefixKey| + |Text(o)| && h[..|cfg.prefixKey|] == cfg.prefixKey
    ensures o.OfUnit? ==> h[|cfg.prefixKey|..] == Text(o)
    ensures !o.OfUnit? ==> |h| == |cfg.prefixTempKey| + |Text(o)| && h[..|cfg.prefixTempKey|] == cfg.prefixTempKey
    ensures !o.OfUnit? ==> h[|cfg.prefixTempKey|..] == Text(o)
  {
    if o.OfUnit? then cfg.prefixKey + Text(o) else cfg.prefixTempKey + Text(o)
  }

  /** Under the default prefixes a hashed unit of time never equals a hashed temporary key:
      `bitter:` and `bitter_temp:` differ at their seventh character. */
  lemma DefaultPrefixesSeparate(o: Operand, p: Operand)
    requires IsKey(o) && IsKey(p) && o.OfUnit? && !p.OfUnit?
    ensures Hash(DefaultConfig, o) != Hash(DefaultConfig, p)
  {
    var h, g := Hash(DefaultConfig, o), Hash(DefaultConfig, p);
    assert h[..7] == "bitter:" && g[..12] == "bitter_temp:";
    SeventhCharacterDiffers(h, g);
  }

  lemma SeventhCharacterDiffers(h: string, g: string)
    requires |h| >= 7 && |g| >= 12 && h[..7] == "bitter:" && g[..12] == "bitter_temp:"
    ensures h != g
  {
    assert h[6] == h[..7][6] == ':';
    assert g[6] == g[..12][6] == '_';
  }

  /** Unit keys always contain a colon, so no unit of time ever hashes to the index set,
      whatever the prefix. */
  lemma IndexIsNeverAUnitKey(cfg: Config, t: TimeUnit)
    requires IsKey(OfUnit(t))
    ensures Hash(cfg, OfUnit(t)) != IndexKey(cfg)
  {
    var s := Text(OfUnit(t));
    assert ':' in s by {
      match t
      case BitUnit(u) =>
        assert s[|NameText(u.eventName)|] == ':';
      case AggregationUnit(a) =>
        Aggregations.KeyIsInnerKeyWithSuffix(a);
        assert s[|s| - 5] == ':';
    }
    assert Hash(cfg, OfUnit(t)) == cfg.prefixKey + s;
    assert ':' !in "keys";
  }

  /** The temporary index is not protected the same way: a Key whose value is `keys` hashes to
      the temporary index itself. */
  lemma KeyCanShadowTempIndex(cfg: Config)
    ensures Hash(cfg, OfKey(Key("keys"))) == TempIndexKey(cfg)
  {
  }

  /** The expiry `mark` reads from a unit. */
  function UnitExpiry(t: TimeUnit): Expiry {
    match t
    case BitUnit(u) => GetExpires(u)
    case AggregationUnit(a) => Aggregations.GetExpires(a)
    case UnkeyedUnit(u) => GetExpires(u)
  }

  /** A unit whose expiry is a DateTime already past `now` is skipped without a write. */
  predicate Skipped(t: TimeUnit, now: DateTime) {
    match UnitExpiry(t)
    case ExpiresAt(m) => Later(now, m)
    case _ => false
  }

  /** A unit that is not skipped and is not a key aborts the whole pipeline. */
  predicate Rejected(t: TimeUnit, now: DateTime) {
    !Skipped(t, now) && !IsKey(OfUnit(t))
  }

  /** EXPIREAT for an absolute expiry, EXPIRE for a number of seconds. */
  function ExpireCommand(k: string, e: Expiry): (c: Command)
    requires e.IsSet()
    ensures (c.ExpireAt? || c.Expire?) && c.key == k
    ensures e.ExpiresAt? ==> c == ExpireAt(k, Timestamp(e.moment))
    ensures e.ExpiresAfter? ==> c == Expire(k, e.seconds)
  {
    match e
    case ExpiresAt(m) => ExpireAt(k, Timestamp(m))
    case ExpiresAfter(s) => Expire(k, s)
  }

  /** The commands `mark` pipes for one unit: nothing for an expired unit; otherwise one write
      (ZINCRBY by 1.0 on an accumulator, SETBIT 1 on a bit-vector), then an expiry only when
      the unit's expiry is truthy, then the SADD of the prefixed key into the index. */
  function UnitPlan(cfg: Config, t: TimeUnit, id: nat, now: DateTime): (r: Result<seq<Command>, Error>)
    ensures r.Failure? <==> Rejected(t, now)
    ensures r.Failure? ==> r.error == KeyTypeError
    ensures Skipped(t, now) ==> r == Success([])
    ensures r.Success? && !Skipped(t, now) ==>
              var k := Hash(cfg, OfUnit(t));
              var cs := r.value;
              && |cs| == (if UnitExpiry(t).IsSet() then 3 else 2)
              && cs[0] == (if Kind(OfUnit(t)) == Accumulator then ZIncrBy(k, 1.0, id) else SetBit(k, id))
              && (UnitExpiry(t).IsSet() ==> cs[1] == ExpireCommand(k, UnitExpiry(t)))
              && cs[|cs| - 1] == SAdd(IndexKey(cfg), k)
  {
    if Skipped(t, now) then Success([])
    else if !IsKey(OfUnit(t)) then Failure(KeyTypeError)
    else
      Success(UnitCommands(Hash(cfg, OfUnit(t)), Kind(OfUnit(t)) == Accumulator, UnitExpiry(t), id, IndexKey(cfg)))
  }

  /** The commands for one written unit key `k`. */
  function UnitCommands(k: string, accumulate: bool, e: Expiry, id: nat, index: string): seq<Command> {
    var write := if accumulate then ZIncrBy(k, 1.0, id) else SetBit(k, id);
    var expire := if e.IsSet() then [ExpireCommand(k, e)] else [];
    [write] + expire + [SAdd(index, k)]
  }

  /** The hashed keys of the units that are not skipped, in order: what `mark` should write. */
  function LiveKeys(cfg: Config, units: seq<TimeUnit>, now: DateTime): (keys: seq<string>)
    requires forall i :: 0 <= i < |units| ==> !Rejected(units[i], now)
    ensures |keys| <= |units|
  {
    if units == [] then []
    else
      assert !Rejected(units[0], now);
      (if Skipped(units[0], now) then [] else [Hash(cfg, OfUnit(units[0]))])
      + LiveKeys(cfg, units[1..], now)
  }

  /** The whole `mark` pipeline over a list of units, all checked against one `now`. The Redis
      client runs the callback before it sends anything, so an exception anywhere in it means
      no command is sent: one rejected unit fails the lot. */
  function MarkPlan(cfg: Config, units: seq<TimeUnit>, id: nat, now: DateTime): (r: Result<seq<Command>, Error>)
    ensures r.Failure? <==> exists i :: 0 <= i < |units| && Rejected(units[i], now)
    ensures r.Success? ==> WrittenKeys(r.value) == LiveKeys(cfg, units, now)
    ensures r.Success? ==> IndexedMembers(r.value, IndexKey(cfg)) == LiveKeys(cfg, units, now)
  {
    if units == [] then Success([])
    else
      var head := UnitPlan(cfg, units[0], id, now);
      var tail := MarkPlan(cfg, units[1..], id, now);
      RejectedSomewhere(units, now);
      if head.Failure? then Failure(head.error)
      else if tail.Failure? then Failure(tail.error)
      else
        UnitPlanKeys(cfg, units[0], id, now);
        WrittenKeysAppend(head.value, tail.value);
        IndexedMembersAppend(head.value, tail.value, IndexKey(cfg));
        Success(head.value + tail.value)
  }

  /** `mark`'s pipeline over two lists of units is the two pipelines one after the other: it
      succeeds exactly when both do, and then issues the first list's commands, then the
      second's. With `MarkPlanOfOne`, the pipeline is the units' plans in order. */
  lemma {:induction false} MarkPlanAppend(cfg: Config, xs: seq<TimeUnit>, ys: seq<TimeUnit>, id: nat, now: DateTime)
    ensures MarkPlan(cfg, xs + ys, id, now).Success?
            <==> MarkPlan(cfg, xs, id, now).Success? && MarkPlan(cfg, ys, id, now).Success?
    ensures MarkPlan(cfg, xs + ys, id, now).Success? ==>
              MarkPlan(cfg, xs + ys, id, now).value == MarkPlan(cfg, xs, id, now).value + MarkPlan(cfg, ys, id, now).value
  {
    if xs == [] {
      assert xs + ys == ys;
      assert MarkPlan(cfg, xs, id, now) == Success([]);
    } else {
      var zs := xs + ys;
      assert zs != [] && zs[0] == xs[0] && zs[1..] == xs[1..] + ys;
      MarkPlanAppend(cfg, xs[1..], ys, id, now);
      var head := UnitPlan(cfg, xs[0], id, now);
      var tx, ty, tz := MarkPlan(cfg, xs[1..], id, now), MarkPlan(cfg, ys, id, now), MarkPlan(cfg, zs[1..], id, now);
      MarkPlanStep(cfg, zs, id, now);
      MarkPlanStep(cfg, xs, id, now);
      PrependPlan(head, tx, ty, tz, MarkPlan(cfg, xs, id, now), MarkPlan(cfg, zs, id, now));
    }
  }

  /** Putting one plan in front of two pipelines keeps their concatenation law. */
  lemma PrependPlan(head: Result<seq<Command>, Error>, tx: Result<seq<Command>, Error>, ty: Result<seq<Command>, Error>,
                    tz: Result<seq<Command>, Error>, rx: Result<seq<Command>, Error>, rz: Result<seq<Command>, Error>)
    requires tz.Success? <==> tx.Success? && ty.Success?
    requires tz.Success? ==> tz.value == tx.value + ty.value
    requires rx == if head.Failure? then Failure(head.error) else if tx.Failure? then Failure(tx.error) else Success(head.value + tx.value)
    requires rz == if head.Failure? then Failure(head.error) else if tz.Failure? then Failure(tz.error) else Success(head.value + tz.value)
    ensures rz.Success? <==> rx.Success? && ty.Success?
    ensures rz.Success? ==> rz.value == rx.value + ty.value
  {
    if rz.Success? {
      assert head.value + (tx.value + ty.value) == (head.value + tx.value) + ty.value;
    }
  }

  /** One step of the pipeline: the head unit's plan, then the rest's. */
  lemma MarkPlanStep(cfg: Config, units: seq<TimeUnit>, id: nat, now: DateTime)
    requires units != []
    ensures var head, tail := UnitPlan(cfg, units[0], id, now), MarkPlan(cfg, units[1..], id, now);
            MarkPlan(cfg, units, id, now) ==
              if head.Failure? then Failure(head.error)
              else if tail.Failure? then Failure(tail.error)
              else Success(head.value + tail.value)
  {
  }

  /** The pipeline of a single unit is that unit's plan. */
  lemma MarkPlanOfOne(cfg: Config, t: TimeUnit, id: nat, now: DateTime)
    ensures MarkPlan(cfg, [t], id, now) == UnitPlan(cfg, t, id, now)
  {
    assert [t][1..] == [];
    var head := UnitPlan(cfg, t, id, now);
    if head.Success? {
      assert head.value + [] == head.value;
    }
  }

  /** A list has a rejected unit exactly when its head is rejected or its tail has one. */
  lemma RejectedSomewhere(units: seq<TimeUnit>, now: DateTime)
    requires units != []
    ensures (exists i :: 0 <= i < |units| && Rejected(units[i], now))
        <==> Rejected(units[0], now) || exists i :: 0 <= i < |units[1..]| && Rejected(units[1..][i], now)
  {
    if exists i :: 0 <= i < |units| && Rejected(units[i], now) {
      var i :| 0 <= i < |units| && Rejected(units[i], now);
      if i > 0 {
        assert units[1..][i - 1] == units[i];
      }
    }
  }

  /** A write, at most one expiry and an add: only the write and the add name keys. */
  lemma WriteExpireAdd(w: Command, e: seq<Command>, a: Command, index: string)
    requires |e| <= 1 && forall c :: c in e ==> c.Expire? || c.ExpireAt?
    ensures WrittenKeys([w] + e + [a]) == WrittenBy(w) + WrittenBy(a)
    ensures IndexedMembers([w] + e + [a], index) == IndexedBy(w, index) + IndexedBy(a, index)
  {
    ExpiryNamesNoKeys(e, index);
    SingleCommand(w, index);
    SingleCommand(a, index);
    WrittenKeysAppend([w], e);
    WrittenKeysAppend([w] + e, [a]);
    IndexedMembersAppend([w], e, index);
    IndexedMembersAppend([w] + e, [a], index);
  }

  lemma SingleCommand(c: Command, index: string)
    ensures WrittenKeys([c]) == WrittenBy(c)
    ensures IndexedMembers([c], index) == IndexedBy(c, index)
  {
    assert [c][1..] == [];
  }

  lemma ExpiryNamesNoKeys(e: seq<Command>, index: string)
    requires |e| <= 1 && forall c :: c in e ==> c.Expire? || c.ExpireAt?
    ensures WrittenKeys(e) == [] && IndexedMembers(e, index) == []
  {
    if e != [] {
      assert e == [e[0]] && e[0] in e;
      SingleCommand(e[0], index);
    }
  }

  /** The commands for a unit key other than the index write it once and index it once. */
  lemma UnitCommandsKeys(k: string, accumulate: bool, e: Expiry, id: nat, index: string)
    requires k != index
    ensures WrittenKeys(UnitCommands(k, accumulate, e, id, index)) == [k]
    ensures IndexedMembers(UnitCommands(k, accumulate, e, id, index), index) == [k]
  {
    var write := if accumulate then ZIncrBy(k, 1.0, id) else SetBit(k, id);
    var expire := if e.IsSet() then [ExpireCommand(k, e)] else [];
    WriteExpireAdd(write, expire, SAdd(index, k), index);
  }

  /** One unit's plan writes its hashed key once and indexes it once, unless skipped. */
  lemma UnitPlanKeys(cfg: Config, t: TimeUnit, id: nat, now: DateTime)
    requires !Rejected(t, now)
    ensures UnitPlan(cfg, t, id, now).Success?
    ensures var cs := UnitPlan(cfg, t, id, now).value;
            var expected := if Skipped(t, now) then [] else [Hash(cfg, OfUnit(t))];
            WrittenKeys(cs) == expected && IndexedMembers(cs, IndexKey(cfg)) == expected
  {
    if !Skipped(t, now) {
      IndexIsNeverAUnitKey(cfg, t);
      UnitCommandsKeys(Hash(cfg, OfUnit(t)), Kind(OfUnit(t)) == Accumulator, UnitExpiry(t), id, IndexKey(cfg));
    }
  }

  /** An expiry given in seconds never causes a skip, and an expiry of null or 0 adds no
      expiry command. */
  lemma RelativeExpiryIsNeverSkipped(cfg: Config, t: TimeUnit, id: nat, now: DateTime)
    requires IsKey(OfUnit(t)) && UnitExpiry(t).ExpiresAfter?
    ensures UnitPlan(cfg, t, id, now).Success?
    ensures |UnitPlan(cfg, t, id, now).value| == if UnitExpiry(t).seconds == 0 then 2 else 3
  {
  }

  /** An Infinity unit never expires, whatever was set on it: `mark` never skips it and gives
      its key no expiry, only the write and the index entry. */
  lemma InfinityIsNeverSkipped(cfg: Config, u: UnitOfTime, id: nat, now: DateTime)
    requires u.granularity == Infinity
    ensures var k := Hash(cfg, OfUnit(BitUnit(u)));
            UnitPlan(cfg, BitUnit(u), id, now) == Success([SetBit(k, id), SAdd(IndexKey(cfg), k)])
  {
    var k := Hash(cfg, OfUnit(BitUnit(u)));
    assert [SetBit(k, id)] + [] + [SAdd(IndexKey(cfg), k)] == [SetBit(k, id), SAdd(IndexKey(cfg), k)];
  }

  /** The order in which `mark` walks an event's units. */
  const MarkOrder: seq<Granularity> := [Year, Month, Week, Day, Hour]

  /** The units `mark` walks: the event's `getUnitsOfTime`, all plain units. */
  function MarkedUnits(ev: Event, d: DateTime): (units: seq<TimeUnit>)
    ensures |units| == 5
    ensures forall i :: 0 <= i < 5 ==> units[i] == BitUnit(UnitsOfTime.Create(MarkOrder[i], EventObject(ev), d))
  {
    var eu := EventUnits(ev, d);
    [BitUnit(eu[0].1), BitUnit(eu[1].1), BitUnit(eu[2].1), BitUnit(eu[3].1), BitUnit(eu[4].1)]
  }

  /** `mark($event, $id, $dateTime)`: a raw name goes through `new Event`, which (the
      initializer being misnamed) leaves the event without a key. */
  function Mark(cfg: Config, ref: EventRef, id: nat, d: DateTime, now: DateTime): (r: Result<seq<Command>, Error>)
    ensures r == Success(Pairs(MarkedKeys(cfg, ref, d), id, IndexKey(cfg)))
  {
    var ev := match ref
              case EventObject(e) => e
              case Named(name) => New(name);
    assert ev == Events.Create(ref);
    MarkedUnitsAreFresh(cfg, ref, d);
    FreshMarkPlan(cfg, MarkedUnits(ev, d), MarkedKeys(cfg, ref, d), id, now);
    MarkPlan(cfg, MarkedUnits(ev, d), id, now)
  }

  /** The key `mark` uses for one granularity of an event at a date. */
  function BucketKey(cfg: Config, ev: Event, g: Granularity, d: DateTime): string {
    cfg.prefixKey + NameText(Events.GetKey(ev)) + ":" + Label(g, d)
  }

  /** The five bucket keys `mark` touches, year to hour. */
  function MarkedKeys(cfg: Config, ref: EventRef, d: DateTime): (ks: seq<string>)
    ensures |ks| == 5
    ensures forall i :: 0 <= i < 5 ==> ks[i] == BucketKey(cfg, Events.Create(ref), MarkOrder[i], d)
  {
    seq(5, i requires 0 <= i < 5 => BucketKey(cfg, Events.Create(ref), MarkOrder[i], d))
  }

  /** A SETBIT of `id` followed by an SADD into `index`, for each key in turn. */
  function Pairs(keys: seq<string>, id: nat, index: string): (cs: seq<Command>)
    ensures |cs| == 2 * |keys|
  {
    if keys == [] then [] else [SetBit(keys[0], id), SAdd(index, keys[0])] + Pairs(keys[1..], id, index)
  }

  /** The `i`-th pair is the SETBIT and the SADD of the `i`-th key. */
  lemma {:induction false} PairsAt(keys: seq<string>, id: nat, index: string, i: nat)
    requires i < |keys|
    ensures Pairs(keys, id, index)[2 * i] == SetBit(keys[i], id)
    ensures Pairs(keys, id, index)[2 * i + 1] == SAdd(index, keys[i])
  {
    if i > 0 {
      PairsAt(keys[1..], id, index, i - 1);
      var rest := Pairs(keys[1..], id, index);
      assert Pairs(keys, id, index) == [SetBit(keys[0], id), SAdd(index, keys[0])] + rest;
      assert Pairs(keys, id, index)[2 * i] == rest[2 * (i - 1)];
      assert Pairs(keys, id, index)[2 * i + 1] == rest[2 * (i - 1) + 1];
    }
  }

  lemma FreshUnitKey(cfg: Config, ev: Event, g: Granularity, d: DateTime)
    ensures Hash(cfg, OfUnit(BitUnit(UnitsOfTime.Create(g, EventObject(ev), d)))) == BucketKey(cfg, ev, g, d)
  {
    var u := UnitsOfTime.Create(g, EventObject(ev), d);
    assert Text(OfUnit(BitUnit(u))) == NameText(Events.GetKey(ev)) + ":" + Label(g, d);
  }

  /** A list of units that never expire, are bit-vectors and hash to `keys` yields the
      SETBIT/SADD pairs of those keys. */
  lemma {:induction false} FreshMarkPlan(cfg: Config, units: seq<TimeUnit>, keys: seq<string>, id: nat, now: DateTime)
    requires |units| == |keys|
    requires forall i :: 0 <= i < |units| ==>
               units[i].BitUnit? && UnitExpiry(units[i]) == NoExpiry && Hash(cfg, OfUnit(units[i])) == keys[i]
    ensures MarkPlan(cfg, units, id, now) == Success(Pairs(keys, id, IndexKey(cfg)))
  {
    if units != [] {
      var k := keys[0];
      var t := units[0];
      assert UnitExpiry(t) == NoExpiry && Hash(cfg, OfUnit(t)) == k;
      assert !Skipped(t, now) && Kind(OfUnit(t)) == BitVector;
      var head := [SetBit(k, id), SAdd(IndexKey(cfg), k)];
      assert UnitPlan(cfg, t, id, now) == Success(head) by {
        assert [SetBit(k, id)] + [] + [SAdd(IndexKey(cfg), k)] == head;
      }
      forall i | 0 <= i < |units| - 1
        ensures units[1..][i].BitUnit? && UnitExpiry(units[1..][i]) == NoExpiry && Hash(cfg, OfUnit(units[1..][i])) == keys[1..][i]
      {
        assert units[1..][i] == units[i + 1];
      }
      FreshMarkPlan(cfg, units[1..], keys[1..], id, now);
      assert Pairs(keys, id, IndexKey(cfg)) == head + Pairs(keys[1..], id, IndexKey(cfg));
    }
  }

  /** `mark` issues exactly ten commands: for year, month, week, day and hour in that order, a
      SETBIT of the id on that bucket's key, then the SADD of that key into the index. */
  lemma MarkByEvent(cfg: Config, ref: EventRef, id: nat, d: DateTime, now: DateTime)
    ensures Mark(cfg, ref, id, d, now).Success? && |Mark(cfg, ref, id, d, now).value| == 10
    ensures forall i :: 0 <= i < 5 ==>
              && Mark(cfg, ref, id, d, now).value[2 * i] == SetBit(MarkedKeys(cfg, ref, d)[i], id)
              && Mark(cfg, ref, id, d, now).value[2 * i + 1] == SAdd(IndexKey(cfg), MarkedKeys(cfg, ref, d)[i])
  {
    var ks := MarkedKeys(cfg, ref, d);
    forall i | 0 <= i < 5
      ensures Pairs(ks, id, IndexKey(cfg))[2 * i] == SetBit(ks[i], id)
      ensures Pairs(ks, id, IndexKey(cfg))[2 * i + 1] == SAdd(IndexKey(cfg), ks[i])
    {
      PairsAt(ks, id, IndexKey(cfg), i);
    }
  }

  lemma MarkedUnitsAreFresh(cfg: Config, ref: EventRef, d: DateTime)
    ensures var units := MarkedUnits(Events.Create(ref), d);
            var ks := MarkedKeys(cfg, ref, d);
            forall i :: 0 <= i < |units| ==>
              units[i].BitUnit? && UnitExpiry(units[i]) == NoExpiry && Hash(cfg, OfUnit(units[i])) == ks[i]
  {
    var ev := Events.Create(ref);
    var units := MarkedUnits(ev, d);
    var ks := MarkedKeys(cfg, ref, d);
    forall i | 0 <= i < 5
      ensures units[i].BitUnit? && UnitExpiry(units[i]) == NoExpiry && Hash(cfg, OfUnit(units[i])) == ks[i]
    {
      FreshUnitKey(cfg, ev, MarkOrder[i], d);
    }
  }

  /** Whatever raw name is passed, `mark` writes the same keys: the name is lost. */
  lemma MarkIgnoresRawName(cfg: Config, a: string, b: string, id: nat, d: DateTime, now: DateTime)
    ensures Mark(cfg, Named(a), id, d, now) == Mark(cfg, Named(b), id, d, now)
    ensures Mark(cfg, Named(a), id, d, now) == Mark(cfg, EventObject(Event(None)), id, d, now)
  {
  }

  /** The offsets set by SETBIT commands on `k`. */
  function SetOffsets(cs: seq<Command>, k: string): set<nat> {
    if cs == [] then {}
    else (if cs[0].SetBit? && cs[0].key == k then {cs[0].offset} else {}) + SetOffsets(cs[1..], k)
  }

  /** A list of SETBIT, SADD and ZINCRBY commands only ever adds bits: each key ends with its
      old bits plus the offsets set on it. */
  lemma {:induction false} OnlyAddsBits(b: Bitmaps, cs: seq<Command>, k: string)
    requires forall i :: 0 <= i < |cs| ==> cs[i].SetBit? || cs[i].SAdd? || cs[i].ZIncrBy?
    ensures BitsAt(ApplyAll(b, cs), k) == BitsAt(b, k) + SetOffsets(cs, k)
    decreases |cs|
  {
    if cs != [] {
      ApplyReads(b, cs[0], k);
      OnlyAddsBits(Apply(b, cs[0]), cs[1..], k);
    }
  }

  lemma {:induction false} SetOffsetsOfPairs(keys: seq<string>, id: nat, index: string, k: string)
    ensures SetOffsets(Pairs(keys, id, index), k) == if k in keys then {id} else {}
  {
    if keys != [] {
      var cs := Pairs(keys, id, index);
      assert cs[1..][1..] == Pairs(keys[1..], id, index);
      SetOffsetsOfPairs(keys[1..], id, index, k);
      assert k in keys <==> k == keys[0] || k in keys[1..];
    }
  }

  /** After the mark pipeline runs, the id's bit is set in each of the event's five bucket
      keys at that date, and no other bit-vector changes. */
  lemma MarkEffect(cfg: Config, ref: EventRef, id: nat, d: DateTime, now: DateTime, b: Bitmaps, k: string)
    ensures Mark(cfg, ref, id, d, now).Success?
    ensures BitsAt(ApplyAll(b, Mark(cfg, ref, id, d, now).value), k)
            == if k in MarkedKeys(cfg, ref, d) then BitsAt(b, k) + {id} else BitsAt(b, k)
  {
    var ks := MarkedKeys(cfg, ref, d);
    var cs := Pairs(ks, id, IndexKey(cfg));
    PairsOnlyAdd(ks, id, IndexKey(cfg));
    OnlyAddsBits(b, cs, k);
    SetOffsetsOfPairs(ks, id, IndexKey(cfg), k);
  }

  lemma {:induction false} PairsOnlyAdd(keys: seq<string>, id: nat, index: string)
    ensures forall i :: 0 <= i < 2 * |keys| ==> Pairs(keys, id, index)[i].SetBit? || Pairs(keys, id, index)[i].SAdd?
  {
    if keys != [] {
      PairsOnlyAdd(keys[1..], id, index);
      var rest := Pairs(keys[1..], id, index);
      var cs := Pairs(keys, id, index);
      assert cs == [SetBit(keys[0], id), SAdd(index, keys[0])] + rest;
      forall i | 0 <= i < |cs|
        ensures cs[i].SetBit? || cs[i].SAdd?
      {
        if i >= 2 {
          assert cs[i] == rest[i - 2];
        } else {
          assert cs[i] == [SetBit(keys[0], id), SAdd(index, keys[0])][i];
        }
      }
    }
  }

  /** PHP's `(int)` cast of a float: truncation toward zero. */
  function Trunc(x: real): (n: int)
    ensures x >= 0.0 ==> 0 <= n && n as real <= x < n as real + 1.0
    ensures x < 0.0 ==> n <= 0 && n as real - 1.0 < x <= n as real
  {
    if x >= 0.0 then x.Floor else -((-x).Floor)
  }

  /** The sum of the int-cast scores. */
  function Total(entries: seq<(nat, real)>): (n: int)
    ensures (forall i :: 0 <= i < |entries| ==> entries[i].1 >= 0.0) ==> n >= 0
    ensures (forall i :: 0 <= i < |entries| ==> entries[i].1 < 1.0) ==> n <= 0
  {
    if entries == [] then 0 else Trunc(entries[0].1) + Total(entries[1..])
  }

  /** `in($id, $key)`: a non-zero score on an accumulator, a set bit on a bit-vector. */
  function In(cfg: Config, s: Store, id: nat, key: Operand): (marked: bool)
    requires IsKey(key)
    ensures Kind(key) == Accumulator ==>
              (marked <==> exists x :: ScoreOf(s.scores, Hash(cfg, key), id) == Some(x) && x != 0.0)
    ensures Kind(key) == BitVector ==> (marked <==> id in BitsAt(s.bits, Hash(cfg, key)))
  {
    if Kind(key) == Accumulator then
      match ScoreOf(s.scores, Hash(cfg, key), id)
      case Some(x) => x != 0.0
      case None => false
    else id in BitsAt(s.bits, Hash(cfg, key))
  }

  /** `count($key, $id)`: on an accumulator, the int-cast score of a truthy id (0 when absent)
      or, for a null or zero id, the sum of all int-cast scores; on a bit-vector, the number of
      set bits. */
  function Count(cfg: Config, s: Store, key: Operand, id: Option<nat>): (n: int)
    requires IsKey(key)
    ensures Kind(key) == BitVector ==> n == |BitsAt(s.bits, Hash(cfg, key))|
    ensures Kind(key) == Accumulator && id.Some? && id.value != 0 ==>
              n == Trunc(ScoreOf(s.scores, Hash(cfg, key), id.value).GetOr(0.0))
    ensures Kind(key) == Accumulator && (id.None? || id.value == 0) ==>
              n == Total(EntriesAt(s.scores, Hash(cfg, key)))
  {
    if Kind(key) == Accumulator then
      if id.Some? && id.value != 0 then Trunc(ScoreOf(s.scores, Hash(cfg, key), id.value).GetOr(0.0))
      else Total(EntriesAt(s.scores, Hash(cfg, key)))
    else |BitsAt(s.bits, Hash(cfg, key))|
  }

  /** On an accumulator whose score for a non-zero id is a whole number, `in` holds exactly
      when `count` of that id is non-zero. */
  lemma InAgreesWithCount(cfg: Config, s: Store, key: Operand, id: nat, w: int)
    requires Kind(key) == Accumulator && id != 0
    requires ScoreOf(s.scores, Hash(cfg, key), id) == Some(w as real)
    ensures Count(cfg, s, key, Some(id)) == w
    ensures In(cfg, s, id, key) <==> Count(cfg, s, key, Some(id)) != 0
  {
  }

  /** On a bit-vector, a marked id is counted: `in` implies a positive `count`. */
  lemma MarkedIdIsCounted(cfg: Config, s: Store, key: Operand, id: nat)
    requires Kind(key) == BitVector && In(cfg, s, id, key)
    ensures Count(cfg, s, key, None) >= 1
  {
    var bits := BitsAt(s.bits, Hash(cfg, key));
    assert id in bits;
    assert |bits| == |bits - {id}| + 1;
  }

  /** The `in` check after `mark` succeeds on the event's hour bucket for that date, whatever
      the store held before. */
  lemma MarkThenIn(cfg: Config, ref: EventRef, id: nat, d: DateTime, now: DateTime, s: Store)
    ensures Mark(cfg, ref, id, d, now).Success?
    ensures var after := Store(ApplyAll(s.bits, Mark(cfg, ref, id, d, now).value), s.scores);
            var hour := OfUnit(BitUnit(UnitsOfTime.Create(Hour, EventObject(Events.Create(ref)), d)));
            In(cfg, after, id, hour) && Count(cfg, after, hour, None) >= 1
  {
    var hour := OfUnit(BitUnit(UnitsOfTime.Create(Hour, EventObject(Events.Create(ref)), d)));
    var k := Hash(cfg, hour);
    FreshUnitKey(cfg, Events.Create(ref), Hour, d);
    assert k == MarkedKeys(cfg, ref, d)[4];
    MarkEffect(cfg, ref, id, d, now, s.bits, k);
    var after := Store(ApplyAll(s.bits, Mark(cfg, ref, id, d, now).value), s.scores);
    MarkedIdIsCounted(cfg, after, hour, id);
  }

  /** `bitOp`: BITOP into the hashed destination, register it in the temporary index, and
      expire it after the configured timeout. The destination is the only member added to any
      set, and only to the temporary index. */
  function BitOpPlan(cfg: Config, op: BitOperation, dest: Operand, first: Operand, second: Operand): (cs: seq<Command>)
    requires IsKey(dest) && IsKey(first) && IsKey(second)
    ensures forall index :: IndexedMembers(cs, index) == if index == TempIndexKey(cfg) then [Hash(cfg, dest)] else []
  {
    var d := Hash(cfg, dest);
    var cs := [BitOp(op, d, Hash(cfg, first), Hash(cfg, second)), SAdd(TempIndexKey(cfg), d), Expire(d, cfg.expireTimeout)];
    forall index
      ensures IndexedMembers(cs, index) == if index == TempIndexKey(cfg) then [d] else []
    {
      assert cs[1..][1..][1..] == [];
      assert IndexedMembers(cs[1..][1..], index) == [];
      assert IndexedMembers(cs[1..], index) == IndexedBy(cs[1], index);
    }
    cs
  }

  /** `bitOpAnd`: with a positive timeout the destination holds the ids present in both sources
      as they were before; with a timeout of zero or less it is gone. Nothing else changes. */
  function BitOpAnd(cfg: Config, dest: Operand, first: Operand, second: Operand): (cs: seq<Command>)
    requires IsKey(dest) && IsKey(first) && IsKey(second)
    ensures forall b: Bitmaps, k: string :: BitsAt(ApplyAll(b, cs), k) ==
              if k != Hash(cfg, dest) then BitsAt(b, k)
              else if cfg.expireTimeout > 0 then BitsAt(b, Hash(cfg, first)) * BitsAt(b, Hash(cfg, second))
              else {}
  {
    var cs := BitOpPlan(cfg, And, dest, first, second);
    forall b: Bitmaps, k: string
      ensures BitsAt(ApplyAll(b, cs), k) ==
                if k != Hash(cfg, dest) then BitsAt(b, k)
                else if cfg.expireTimeout > 0 then BitsAt(b, Hash(cfg, first)) * BitsAt(b, Hash(cfg, second))
                else {}
    {
      BitOpResult(cfg, And, dest, first, second, b, k);
    }
    cs
  }

  /** `bitOpOr`: as `bitOpAnd`, with the ids present in either source. */
  function BitOpOr(cfg: Config, dest: Operand, first: Operand, second: Operand): (cs: seq<Command>)
    requires IsKey(dest) && IsKey(first) && IsKey(second)
    ensures forall b: Bitmaps, k: string :: BitsAt(ApplyAll(b, cs), k) ==
              if k != Hash(cfg, dest) then BitsAt(b, k)
              else if cfg.expireTimeout > 0 then BitsAt(b, Hash(cfg, first)) + BitsAt(b, Hash(cfg, second))
              else {}
  {
    var cs := BitOpPlan(cfg, Or, dest, first, second);
    forall b: Bitmaps, k: string
      ensures BitsAt(ApplyAll(b, cs), k) ==
                if k != Hash(cfg, dest) then BitsAt(b, k)
                else if cfg.expireTimeout > 0 then BitsAt(b, Hash(cfg, first)) + BitsAt(b, Hash(cfg, second))
                else {}
    {
      BitOpResult(cfg, Or, dest, first, second, b, k);
    }
    cs
  }

  /** `bitOpXor`: as `bitOpAnd`, with the ids present in exactly one source. */
  function BitOpXor(cfg: Config, dest: Operand, first: Operand, second: Operand): (cs: seq<Command>)
    requires IsKey(dest) && IsKey(first) && IsKey(second)
    ensures forall b: Bitmaps, k: string :: BitsAt(ApplyAll(b, cs), k) ==
              if k != Hash(cfg, dest) then BitsAt(b, k)
              else if cfg.expireTimeout > 0 then
                (BitsAt(b, Hash(cfg, first)) - BitsAt(b, Hash(cfg, second)))
                + (BitsAt(b, Hash(cfg, second)) - BitsAt(b, Hash(cfg, first)))
              else {}
  {
    var cs := BitOpPlan(cfg, Xor, dest, first, second);
    forall b: Bitmaps, k: string
      ensures BitsAt(ApplyAll(b, cs), k) ==
                if k != Hash(cfg, dest) then BitsAt(b, k)
                else if cfg.expireTimeout > 0 then
                  (BitsAt(b, Hash(cfg, first)) - BitsAt(b, Hash(cfg, second)))
                  + (BitsAt(b, Hash(cfg, second)) - BitsAt(b, Hash(cfg, first)))
                else {}
    {
      BitOpResult(cfg, Xor, dest, first, second, b, k);
    }
    cs
  }

  /** With a positive timeout the destination holds the combination of the two sources as
      they were before (even when it is one of them), and no other bit-vector changes; with a
      timeout of zero or less the destination is gone at once. */
  lemma BitOpResult(cfg: Config, op: BitOperation, dest: Operand, first: Operand, second: Operand, b: Bitmaps, k: string)
    requires IsKey(dest) && IsKey(first) && IsKey(second)
    ensures var after := ApplyAll(b, BitOpPlan(cfg, op, dest, first, second));
            BitsAt(after, k) ==
              if k != Hash(cfg, dest) then BitsAt(b, k)
              else if cfg.expireTimeout > 0 then Combine(op, BitsAt(b, Hash(cfg, first)), BitsAt(b, Hash(cfg, second)))
              else {}
  {
    var d := Hash(cfg, dest);
    var c0 := BitOp(op, d, Hash(cfg, first), Hash(cfg, second));
    var c1 := SAdd(TempIndexKey(cfg), d);
    var c2 := Expire(d, cfg.expireTimeout);
    assert BitOpPlan(cfg, op, dest, first, second) == [c0, c1, c2];
    ApplyThree(b, c0, c1, c2);
    var b1 := Apply(b, c0);
    var b2 := Apply(b1, c1);
    ApplyReads(b, c0, k);
    ApplyReads(b1, c1, k);
    ApplyReads(b2, c2, k);
  }
}

=== FILE: calendar.dfy ===
/** The slice of PHP's DateTime that the library reads: the civil fields of a date in UTC
    (proleptic Gregorian calendar, whole seconds), its Unix timestamp, its ISO 8601 week number and
    the instant ordering that PHP's `<`/`>` on DateTime objects uses. */
module Calendar {

  /** Year, month, day, hour, minute and second as `format('Y')`, `format('n')`, ... read them. */
  datatype DateFields = DateFields(year: int, month: int, day: int, hour: int, minute: int, second: int)

  predicate IsLeapYear(y: int) {
    y % 4 == 0 && (y % 100 != 0 || y % 400 == 0)
  }

  function YearLength(y: int): int {
    if IsLeapYear(y) then 366 else 365
  }

  function DaysInMonth(y: int, m: int): (n: int)
    requires 1 <= m <= 12
    ensures 28 <= n <= 31
    ensures n == 29 <==> m == 2 && IsLeapYear(y)
  {
    if m == 2 then (if IsLeapYear(y) then 29 else 28)
    else if m == 4 || m == 6 || m == 9 || m == 11 then 30
    else 31
  }

  /** Four-digit years only: `format('Y')` pads to at least four digits, and years outside
      1000..9999 are not part of this model. */
  predicate ValidFields(d: DateFields) {
    && 1000 <= d.year <= 9999
    && 1 <= d.month <= 12
    && 1 <= d.day <= DaysInMonth(d.year, d.month)
    && 0 <= d.hour < 24
    && 0 <= d.minute < 60
    && 0 <= d.second < 60
  }

  type DateTime = d: DateFields | ValidFields(d) witness DateFields(1970, 1, 1, 0, 0, 0)

  /** Days of the year `y` that come before the first day of month `m`. */
  function DaysBeforeMonth(y: int, m: int): int
    requires 1 <= m <= 12
  {
    var cumulative := [0, 31, 59, 90, 120, 151, 181, 212, 243, 273, 304, 334];
    cumulative[m - 1] + (if m > 2 && IsLeapYear(y) then 1 else 0)
  }

  /** Days from 0001-01-01 to the first day of year `y`. */
  function DaysBeforeYear(y: int): int
    requires y >= 1
  {
    var p := y - 1;
    365 * p + p / 4 - p / 100 + p / 400
  }

  /** Days from 0001-01-01 (a Monday) to the date. */
  function DayNumber(d: DateTime): int {
    DaysBeforeYear(d.year) + DaysBeforeMonth(d.year, d.month) + d.day - 1
  }

  /** Day of the year, 1 for January 1st. */
  function Ordinal(d: DateTime): int {
    DaysBeforeMonth(d.year, d.month) + d.day
  }

  /** ISO 8601 day of the week: 1 for Monday up to 7 for Sunday. */
  function Weekday(d: DateTime): int {
    DayNumber(d) % 7 + 1
  }

  /** The day number of the Monday that starts the date's ISO week. Two dates are in the same
      ISO week exactly when they have the same Monday. */
  function MondayOf(d: DateTime): int {
    DayNumber(d) - (Weekday(d) - 1)
  }

  /** 53 when the year starts on a Thursday, or on a Wednesday in a leap year; 52 otherwise. */
  function WeeksInYear(y: int): (n: int)
    requires y >= 1
    ensures n == 52 || n == 53
  {
    var janFirst := DaysBeforeYear(y) % 7 + 1;
    if janFirst == 4 || (IsLeapYear(y) && janFirst == 3) then 53 else 52
  }

  /** The ISO 8601 week number (`format('W')`): the week containing the year's first Thursday
      is week 1, the days before it belong to the last week of the previous year, and the days
      after the last week that has its Thursday in this year belong to week 1 of the next. */
  function IsoWeek(d: DateTime): (w: int)
    ensures 1 <= w <= 53
  {
    var raw := (Ordinal(d) - Weekday(d) + 10) / 7;
    if raw < 1 then WeeksInYear(d.year - 1)
    else if raw > WeeksInYear(d.year) then 1
    else raw
  }

  /** Day number of 1970-01-01. */
  const EpochDay := 719162

  /** Unix timestamp (`getTimestamp()`), whole seconds since 1970-01-01 00:00:00 UTC: the
      whole days since then count 86400 seconds each, and the rest is the time of day. */
  function Timestamp(d: DateTime): (t: int)
    ensures t / 86400 == DayNumber(d) - EpochDay
    ensures t % 86400 == d.hour * 3600 + d.minute * 60 + d.second
  {
    var secondOfDay := d.hour * 3600 + d.minute * 60 + d.second;
    assert 0 <= secondOfDay < 86400;
    (DayNumber(d) - EpochDay) * 86400 + secondOfDay
  }

  /** PHP's `$a > $b` on two DateTime objects: `a` is a later instant than `b`. */
  predicate Later(a: DateTime, b: DateTime) {
    Timestamp(a) > Timestamp(b)
  }

  /** Field-by-field (year, month, day, hour, minute, second) lexicographic order. */
  predicate FieldsBefore(a: DateFields, b: DateFields) {
    || a.year < b.year
    || (a.year == b.year && a.month < b.month)
    || (a.year == b.year && a.month == b.month && a.day < b.day)
    || (a.year == b.year && a.month == b.month && a.day == b.day && a.hour < b.hour)
    || (a.year == b.year && a.month == b.month && a.day == b.day && a.hour == b.hour && a.minute < b.minute)
    || (a.year == b.year && a.month == b.month && a.day == b.day && a.hour == b.hour && a.minute == b.minute && a.second < b.second)
  }

  lemma EpochHasTimestampZero()
    ensures Timestamp(DateFields(1970, 1, 1, 0, 0, 0)) == 0
    ensures Weekday(DateFields(1970, 1, 1, 0, 0, 0)) == 4
  {
    assert DaysBeforeYear(1970) == 719162;
  }

  /** Dividing by 4, 100 and 400: stepping from `y - 1` to `y` adds one exactly at multiples. */
  lemma QuotientStep(y: int)
    requires y >= 1
    ensures y / 4 - (y - 1) / 4 == (if y % 4 == 0 then 1 else 0)
    ensures y / 100 - (y - 1) / 100 == (if y % 100 == 0 then 1 else 0)
    ensures y / 400 - (y - 1) / 400 == (if y % 400 == 0 then 1 else 0)
  {
  }

  lemma DaysBeforeNextYear(y: int)
    requires y >= 1
    ensures DaysBeforeYear(y + 1) == DaysBeforeYear(y) + YearLength(y)
  {
    QuotientStep(y);
    var leapDays := y / 4 - y / 100 + y / 400;
    var leapDaysBefore := (y - 1) / 4 - (y - 1) / 100 + (y - 1) / 400;
    assert DaysBeforeYear(y + 1) == 365 * y + leapDays;
    assert DaysBeforeYear(y) == 365 * (y - 1) + leapDaysBefore;
    DivisibilityChain(y);
    assert leapDays - leapDaysBefore == (if IsLeapYear(y) then 1 else 0);
  }

  /** Multiples of 400 are multiples of 100, which are multiples of 4. */
  lemma DivisibilityChain(y: int)
    ensures y % 100 == 0 ==> y % 4 == 0
    ensures y % 400 == 0 ==> y % 100 == 0
  {
    if y % 100 == 0 {
      assert y == 4 * (25 * (y / 100));
    }
    if y % 400 == 0 {
      assert y == 100 * (4 * (y / 400));
    }
  }

  lemma MonthEnd(y: int, m: int)
    requires 1 <= m <= 12
    ensures DaysBeforeMonth(y, m) + DaysInMonth(y, m)
            == if m == 12 then YearLength(y) else DaysBeforeMonth(y, m + 1)
  {
  }

  lemma {:induction false} MonthsAreOrdered(y: int, m: int, m': int)
    requires 1 <= m < m' <= 12
    ensures DaysBeforeMonth(y, m) + DaysInMonth(y, m) <= DaysBeforeMonth(y, m')
    decreases m' - m
  {
    MonthEnd(y, m);
    if m + 1 < m' {
      MonthsAreOrdered(y, m + 1, m');
    }
  }

  lemma {:induction false} YearsAreOrdered(y: int, y': int)
    requires 1 <= y < y'
    ensures DaysBeforeYear(y) + YearLength(y) <= DaysBeforeYear(y')
    decreases y' - y
  {
    DaysBeforeNextYear(y);
    if y + 1 < y' {
      YearsAreOrdered(y + 1, y');
      DaysBeforeNextYear(y + 1);
    }
  }

  /** A date's day number stays inside its year. */
  lemma DayNumberWithinYear(d: DateTime)
    ensures DaysBeforeYear(d.year) <= DayNumber(d) < DaysBeforeYear(d.year) + YearLength(d.year)
  {
    MonthEnd(d.year, d.month);
    if d.month < 12 {
      MonthsAreOrdered(d.year, d.month, 12);
      MonthEnd(d.year, 12);
    }
  }

  lemma DayNumberMonotone(a: DateTime, b: DateTime)
    requires
      || a.year < b.year
      || (a.year == b.year && a.month < b.month)
      || (a.year == b.year && a.month == b.month && a.day < b.day)
    ensures DayNumber(a) < DayNumber(b)
  {
    if a.year < b.year {
      DayNumberWithinYear(a);
      DayNumberWithinYear(b);
      YearsAreOrdered(a.year, b.year);
    } else if a.month < b.month {
      MonthsAreOrdered(a.year, a.month, b.month);
    }
  }

  /** The timestamp order is the field order: a later timestamp means a later civil date. */
  lemma {:induction false} TimestampMonotone(a: DateTime, b: DateTime)
    requires FieldsBefore(a, b)
    ensures Timestamp(a) < Timestamp(b)
  {
    if a.year != b.year || a.month != b.month || a.day != b.day {
      DayNumberMonotone(a, b);
    }
  }

  /** `$a > $b` holds exactly when `b` comes before `a` field by field. */
  lemma {:induction false} LaterIsFieldOrder(a: DateTime, b: DateTime)
    ensures Later(a, b) <==> FieldsBefore(b, a)
  {
    if FieldsBefore(b, a) {
      TimestampMonotone(b, a);
    } else if FieldsBefore(a, b) {
      TimestampMonotone(a, b);
    } else {
      assert a == b;
    }
  }

  /** Day number of the Thursday of the date's ISO week. */
  function ThursdayOf(d: DateTime): int {
    MondayOf(d) + 3
  }

  /** Thursdays in a year of `len` days starting at day number `start`: the one at `t` is the
      `(t - start) / 7 + 1`-th, and there are 53 of them exactly when the year starts on a
      Thursday, or on a Wednesday with 366 days. */
  lemma ThursdayCount(start: int, len: int, t: int)
    requires len == 365 || len == 366
    requires t % 7 == 3 && start <= t < start + len
    ensures var weeks := if start % 7 == 3 || (len == 366 && start % 7 == 2) then 53 else 52;
            && (t - start) / 7 + 1 <= weeks
            && ((t - start) / 7 + 1 == weeks <==> t + 7 >= start + len)
  {
    var a, r := start / 7, start % 7;
    var b := t / 7;
    assert start == 7 * a + r && t == 7 * b + 3;
    if r <= 3 {
      assert t - start == 7 * (b - a) + (3 - r);
      assert (t - start) / 7 == b - a;
    } else {
      assert t - start == 7 * (b - a - 1) + (10 - r);
      assert (t - start) / 7 == b - a - 1;
    }
  }

  /** Counting the Thursdays of year `y`: the Thursday at day number `t` is the
      `(t - start) / 7 + 1`-th one, the count never exceeds `WeeksInYear(y)`, and it reaches
      that number exactly at the year's last Thursday. */
  lemma ThursdaysOfYear(y: int, t: int)
    requires y >= 1
    requires t % 7 == 3
    requires DaysBeforeYear(y) <= t < DaysBeforeYear(y + 1)
    ensures (t - DaysBeforeYear(y)) / 7 + 1 <= WeeksInYear(y)
    ensures (t - DaysBeforeYear(y)) / 7 + 1 == WeeksInYear(y) <==> t + 7 >= DaysBeforeYear(y + 1)
  {
    DaysBeforeNextYear(y);
    ThursdayCount(DaysBeforeYear(y), YearLength(y), t);
  }

  /** Where a date's Thursday lies relative to the date, and the quantity `IsoWeek` divides. */
  lemma ThursdayFacts(d: DateTime)
    ensures ThursdayOf(d) % 7 == 3
    ensures DayNumber(d) - 3 <= ThursdayOf(d) <= DayNumber(d) + 3
    ensures Ordinal(d) - Weekday(d) + 10 == ThursdayOf(d) - DaysBeforeYear(d.year) + 7
  {
    var n := DayNumber(d);
    assert Ordinal(d) == n - DaysBeforeYear(d.year) + 1;
    assert ThursdayOf(d) == n - n % 7 + 3;
    ThursdayArithmetic(n);
  }

  /** The Thursday of day `n`'s week, on plain integers. */
  lemma ThursdayArithmetic(n: int)
    ensures (n - n % 7 + 3) % 7 == 3
    ensures n - 3 <= n - n % 7 + 3 <= n + 3
  {
    assert n == 7 * (n / 7) + n % 7;
    assert n - n % 7 + 3 == 7 * (n / 7) + 3;
  }

  /** The year holding a date's Thursday is the date's year or one of its neighbours. */
  lemma ThursdayYearIsNear(d: DateTime, y: int)
    requires y >= 1
    requires DaysBeforeYear(y) <= ThursdayOf(d) < DaysBeforeYear(y + 1)
    ensures d.year - 1 <= y <= d.year + 1
  {
    ThursdayFacts(d);
    DayNumberWithinYear(d);
    if y < d.year - 1 {
      YearsAreOrdered(y, d.year - 1);
      DaysBeforeNextYear(y);
      DaysBeforeNextYear(d.year - 1);
    } else if y > d.year + 1 {
      YearsAreOrdered(d.year + 1, y);
      DaysBeforeNextYear(d.year);
    }
  }

  /** The week number PHP prints is the ISO 8601 one: if the Thursday of the date's week lies
      in year `y`, the week number counts the Thursdays of `y` up to and including that one
      (section 4.1.4 of ISO 8601:2004: week 1 holds the year's first Thursday). */
  lemma {:induction false} IsoWeekCountsThursdays(d: DateTime, y: int)
    requires y >= 1
    requires DaysBeforeYear(y) <= ThursdayOf(d) < DaysBeforeYear(y + 1)
    ensures IsoWeek(d) == (ThursdayOf(d) - DaysBeforeYear(y)) / 7 + 1
  {
    ThursdayYearIsNear(d, y);
    if y == d.year {
      ThursdayFacts(d);
      ThursdaysOfYear(y, ThursdayOf(d));
    } else if y == d.year - 1 {
      ThursdayInPreviousYear(d);
    } else {
      ThursdayInNextYear(d);
    }
  }

  lemma ThursdayInPreviousYear(d: DateTime)
    requires ThursdayOf(d) < DaysBeforeYear(d.year)
    ensures IsoWeek(d) == (ThursdayOf(d) - DaysBeforeYear(d.year - 1)) / 7 + 1
  {
    var t := ThursdayOf(d);
    ThursdayFacts(d);
    DayNumberWithinYear(d);
    DaysBeforeNextYear(d.year - 1);
    var here := DaysBeforeYear(d.year);
    assert here - 3 <= t < here;
    assert (Ordinal(d) - Weekday(d) + 10) / 7 == 0;
    ThursdaysOfYear(d.year - 1, t);
  }

  lemma ThursdayInNextYear(d: DateTime)
    requires DaysBeforeYear(d.year + 1) <= ThursdayOf(d)
    ensures IsoWeek(d) == (ThursdayOf(d) - DaysBeforeYear(d.year + 1)) / 7 + 1
  {
    var t := ThursdayOf(d);
    ThursdayFacts(d);
    DayNumberWithinYear(d);
    DaysBeforeNextYear(d.year);
    var here, next := DaysBeforeYear(d.year), DaysBeforeYear(d.year + 1);
    assert next <= t < next + 3;
    assert (t - next) / 7 == 0;
    assert next == here + YearLength(d.year);
    assert (t - 7) % 7 == 3;
    ThursdaysOfYear(d.year, t - 7);
    var before := (t - 7 - here) / 7;
    assert before + 1 == WeeksInYear(d.year);
    assert (t - here) / 7 == before + 1;
    assert (Ordinal(d) - Weekday(d) + 10) / 7 == before + 2;
  }
}

=== FILE: cleanup.dfy ===
/** `removeAll` and `removeTemp`: read the members of an index set and delete them, one DEL per
    chunk of at most 100 keys. The index set itself is not deleted. */
module Cleanup {
  import opened Commands
  import opened BitStore
  import opened Bitter

  /** `array_chunk`'s chunk size used by both operations. */
  const ChunkSize: nat := 100

  function Flatten(cs: seq<seq<string>>): seq<string> {
    if cs == [] then [] else cs[0] + Flatten(cs[1..])
  }

  /** `array_chunk($keys, 100)`: consecutive pieces, all full but the last, which together
      give back the list. */
  function Chunks(s: seq<string>): (cs: seq<seq<string>>)
    ensures Flatten(cs) == s
    ensures |cs| == (|s| + ChunkSize - 1) / ChunkSize
    ensures forall i :: 0 <= i < |cs| ==> 0 < |cs[i]| <= ChunkSize
    ensures forall i :: 0 <= i < |cs| - 1 ==> |cs[i]| == ChunkSize
    decreases |s|
  {
    if s == [] then []
    else if |s| <= ChunkSize then
      assert Flatten([s]) == s + Flatten([s][1..]);
      [s]
    else
      var rest := Chunks(s[ChunkSize..]);
      var cs := [s[..ChunkSize]] + rest;
      assert cs[1..] == rest;
      assert s == s[..ChunkSize] + s[ChunkSize..];
      cs
  }

  /** One DEL per chunk, in order. */
  function Dels(chunks: seq<seq<string>>): (cs: seq<Command>)
    ensures |cs| == |chunks|
    ensures forall i :: 0 <= i < |cs| ==> cs[i] == Del(chunks[i])
  {
    if chunks == [] then [] else [Del(chunks[0])] + Dels(chunks[1..])
  }

  /** The keys a sequence of commands deletes, in order. */
  function DeletedKeys(cs: seq<Command>): seq<string> {
    if cs == [] then [] else (if cs[0].Del? then cs[0].keys else []) + DeletedKeys(cs[1..])
  }

  lemma {:induction false} DelsDeleteChunks(chunks: seq<seq<string>>)
    ensures DeletedKeys(Dels(chunks)) == Flatten(chunks)
  {
    if chunks != [] {
      var cs := Dels(chunks);
      assert cs[0] == Del(chunks[0]) && cs[1..] == Dels(chunks[1..]);
      DelsDeleteChunks(chunks[1..]);
    }
  }

  /** The commands for one index's members: DELs of at most 100 keys each, which between them
      name every member once, in the order SMEMBERS gave them. */
  function RemovalPlan(members: seq<string>): (cs: seq<Command>)
    ensures |cs| == (|members| + ChunkSize - 1) / ChunkSize
    ensures forall i :: 0 <= i < |cs| ==> cs[i].Del? && 0 < |cs[i].keys| <= ChunkSize
    ensures DeletedKeys(cs) == members
  {
    DelsDeleteChunks(Chunks(members));
    Dels(Chunks(members))
  }

  /** `removeAll`: `smembers` answers SMEMBERS for a key. The DELs name exactly the members of
      the main index. */
  function RemoveAll(cfg: Config, smembers: string -> seq<string>): (cs: seq<Command>)
    ensures forall i :: 0 <= i < |cs| ==> cs[i].Del? && 0 < |cs[i].keys| <= ChunkSize
    ensures DeletedKeys(cs) == smembers(IndexKey(cfg))
  {
    RemovalPlan(smembers(IndexKey(cfg)))
  }

  /** `removeTemp`: the same for the temporary index. */
  function RemoveTemp(cfg: Config, smembers: string -> seq<string>): (cs: seq<Command>)
    ensures forall i :: 0 <= i < |cs| ==> cs[i].Del? && 0 < |cs[i].keys| <= ChunkSize
    ensures DeletedKeys(cs) == smembers(TempIndexKey(cfg))
  {
    RemovalPlan(smembers(TempIndexKey(cfg)))
  }

  /** A sequence of DELs empties exactly the keys it names. */
  lemma {:induction false} DelsEffect(chunks: seq<seq<string>>, b: Bitmaps, k: string)
    ensures BitsAt(ApplyAll(b, Dels(chunks)), k) == if k in Flatten(chunks) then {} else BitsAt(b, k)
    decreases |chunks|
  {
    if chunks != [] {
      var cs := Dels(chunks);
      assert cs[0] == Del(chunks[0]) && cs[1..] == Dels(chunks[1..]);
      ApplyReads(b, cs[0], k);
      DelsEffect(chunks[1..], Apply(b, cs[0]), k);
    }
  }

  /** The removal empties every member of the index and nothing else. */
  lemma RemovalClearsMembers(members: seq<string>, b: Bitmaps, k: string)
    ensures BitsAt(ApplyAll(b, RemovalPlan(members)), k) == if k in members then {} else BitsAt(b, k)
  {
    DelsEffect(Chunks(members), b, k);
  }

  /** Unless an index lists itself, no DEL of `removeAll` or `removeTemp` touches it: the
      index set stays, listing keys that no longer exist. */
  lemma IndexIsKept(cfg: Config, smembers: string -> seq<string>)
    requires IndexKey(cfg) !in smembers(IndexKey(cfg))
    requires TempIndexKey(cfg) !in smembers(TempIndexKey(cfg))
    ensures forall c :: c in RemoveAll(cfg, smembers) ==> c.Del? && IndexKey(cfg) !in c.keys
    ensures forall c :: c in RemoveTemp(cfg, smembers) ==> c.Del? && TempIndexKey(cfg) !in c.keys
  {
    PlanSparesIndex(IndexKey(cfg), smembers(IndexKey(cfg)));
    PlanSparesIndex(TempIndexKey(cfg), smembers(TempIndexKey(cfg)));
  }

  lemma PlanSparesIndex(index: string, members: seq<string>)
    requires index !in members
    ensures forall c :: c in RemovalPlan(members) ==> c.Del? && index !in c.keys
  {
    var chunks := Chunks(members);
    forall c | c in RemovalPlan(members)
      ensures c.Del? && index !in c.keys
    {
      var i :| 0 <= i < |chunks| && c == Dels(chunks)[i];
      if index in chunks[i] {
        FlattenContains(chunks, i, index);
        assert false;
      }
    }
  }

  lemma {:induction false} FlattenContains(cs: seq<seq<string>>, i: nat, k: string)
    requires i < |cs| && k in cs[i]
    ensures k in Flatten(cs)
  {
    if i > 0 {
      FlattenContains(cs[1..], i - 1, k);
    }
  }
}

=== FILE: commands.dfy ===
/** The Redis commands the engine issues, as data. A pipeline or a sequence of calls is a
    `seq<Command>` in issue order. */
module Commands {

  datatype BitOperation = And | Or | Xor

  datatype Command =
    | SetBit(key: string, offset: nat)                          // SETBIT key offset 1
    | ZIncrBy(key: string, increment: real, id: nat)            // ZINCRBY key increment id
    | ExpireAt(key: string, timestamp: int)                     // EXPIREAT key unix-time
    | Expire(key: string, seconds: int)                         // EXPIRE key seconds
    | SAdd(index: string, member: string)                       // SADD index member
    | Del(keys: seq<string>)                                    // DEL key...
    | BitOp(op: BitOperation, dest: string, first: string, second: string)
    | ZUnionStore(dest: string, count: int, sources: seq<string>)

  /** The key a command writes a bit or a score increment to, if any. */
  function WrittenBy(c: Command): seq<string> {
    if c.SetBit? || c.ZIncrBy? then [c.key] else []
  }

  /** The member a command adds to the set `index`, if any. */
  function IndexedBy(c: Command, index: string): seq<string> {
    if c.SAdd? && c.index == index then [c.member] else []
  }

  /** The keys that receive a bit or a score increment, in order. */
  function WrittenKeys(cs: seq<Command>): (keys: seq<string>)
    ensures |keys| <= |cs|
  {
    if cs == [] then [] else WrittenBy(cs[0]) + WrittenKeys(cs[1..])
  }

  /** The members added to the set `index`, in order. */
  function IndexedMembers(cs: seq<Command>, index: string): (members: seq<string>)
    ensures |members| <= |cs|
  {
    if cs == [] then [] else IndexedBy(cs[0], index) + IndexedMembers(cs[1..], index)
  }

  lemma {:induction false} WrittenKeysAppend(xs: seq<Command>, ys: seq<Command>)
    ensures WrittenKeys(xs + ys) == WrittenKeys(xs) + WrittenKeys(ys)
  {
    if xs == [] {
      assert xs + ys == ys;
    } else {
      var zs := xs + ys;
      assert zs[0] == xs[0] && zs[1..] == xs[1..] + ys;
      WrittenKeysAppend(xs[1..], ys);
      calc {
        WrittenKeys(zs);
        WrittenBy(xs[0]) + WrittenKeys(xs[1..] + ys);
        WrittenBy(xs[0]) + (WrittenKeys(xs[1..]) + WrittenKeys(ys));
        (WrittenBy(xs[0]) + WrittenKeys(xs[1..])) + WrittenKeys(ys);
      }
    }
  }

  lemma {:induction false} IndexedMembersAppend(xs: seq<Command>, ys: seq<Command>, index: string)
    ensures IndexedMembers(xs + ys, index) == IndexedMembers(xs, index) + IndexedMembers(ys, index)
  {
    if xs == [] {
      assert xs + ys == ys;
    } else {
      var zs := xs + ys;
      assert zs[0] == xs[0] && zs[1..] == xs[1..] + ys;
      IndexedMembersAppend(xs[1..], ys, index);
      calc {
        IndexedMembers(zs, index);
        IndexedBy(xs[0], index) + IndexedMembers(xs[1..] + ys, index);
        IndexedBy(xs[0], index) + (IndexedMembers(xs[1..], index) + IndexedMembers(ys, index));
        (IndexedBy(xs[0], index) + IndexedMembers(xs[1..], index)) + IndexedMembers(ys, index);
      }
    }
  }
}

=== FILE: date_range.dfy ===
/** The range queries `bitDateRange` and `aggregationDateRange`. Both collect the buckets that
    cover [from, to] (hours, days and months aligned on `from`, plus the ones aligned on `to`
    when those differ, then the years) and combine them into a temporary destination key. The
    DatePeriod factories that list the buckets are not part of this model; they are
    parameters. */
module DateRange {
  import opened Wrappers
  import opened Calendar
  import opened Events
  import opened Keys
  import opened UnitsOfTime
  import Aggregations
  import opened Commands
  import opened BitStore
  import opened Bitter

  /** `DatePeriod::CREATE_FROM` / `DatePeriod::CREATE_TO`. */
  datatype Alignment = CreateFrom | CreateTo

  /** A DatePeriod: the dates it iterates, and the labels `toArray(true)` lists. */
  datatype DatePeriod = DatePeriod(dates: seq<DateTime>, listing: seq<string>)

  /** `DatePeriod::createForHour/Day/Month($from, $to, $alignment)` and
      `DatePeriod::createForYear($from, $to)`. */
  datatype Enumerators = Enumerators(
    period: (Granularity, DateTime, DateTime, Alignment) -> DatePeriod,
    years: (DateTime, DateTime) -> DatePeriod)

  /** PHP's `array_diff($a, $b)`: the entries of `a` whose value does not occur in `b`, each
      with its original index, in order. */
  function ArrayDiff(a: seq<string>, b: seq<string>): (r: seq<(nat, string)>)
    ensures forall e :: e in r ==> e.0 < |a| && a[e.0] == e.1 && e.1 !in b
    ensures forall i :: 0 <= i < |a| && a[i] !in b ==> (i, a[i]) in r
    ensures forall i, j :: 0 <= i < j < |r| ==> r[i].0 < r[j].0
    decreases |a|
  {
    if a == [] then []
    else
      var n := |a| - 1;
      var front := ArrayDiff(a[..n], b);
      assert forall i :: 0 <= i < n ==> a[..n][i] == a[i];
      front + (if a[n] in b then [] else [(n, a[n])])
  }

  /** The two `array_diff` results only hold values missing from the other listing, so they
      are disjoint; they are identical exactly when both are empty, that is when the two
      listings hold the same labels. */
  lemma ArrayDiffsDifferIffSetsDiffer(t: seq<string>, f: seq<string>)
    ensures ArrayDiff(t, f) != ArrayDiff(f, t) <==> exists x :: (x in t) != (x in f)
  {
    if ArrayDiff(t, f) == ArrayDiff(f, t) {
      forall x
        ensures (x in t) == (x in f)
      {
        if x in t && x !in f {
          assert false;
        }
        if x in f && x !in t {
          assert false;
        }
      }
    } else if forall x :: (x in t) == (x in f) {
      NoDiffWhenSameLabels(t, f);
      NoDiffWhenSameLabels(f, t);
      assert false;
    }
  }

  lemma {:induction false} NoDiffWhenSameLabels(a: seq<string>, b: seq<string>)
    requires forall x :: x in a ==> x in b
    ensures ArrayDiff(a, b) == []
    decreases |a|
  {
    if a != [] {
      var n := |a| - 1;
      assert forall x :: x in a[..n] ==> x in a;
      NoDiffWhenSameLabels(a[..n], b);
      assert a[n] in a;
    }
  }

  /** The dates of one granularity: the `from`-aligned period, then the `to`-aligned one when
      the two periods list different labels. */
  function Aligned(en: Enumerators, g: Granularity, from: DateTime, to: DateTime): (dates: seq<DateTime>)
    ensures var f := en.period(g, from, to, CreateFrom);
            var t := en.period(g, from, to, CreateTo);
            dates == f.dates + (if exists x :: (x in t.listing) != (x in f.listing) then t.dates else [])
  {
    var f := en.period(g, from, to, CreateFrom);
    var t := en.period(g, from, to, CreateTo);
    ArrayDiffsDifferIffSetsDiffer(t.listing, f.listing);
    f.dates + (if ArrayDiff(t.listing, f.listing) != ArrayDiff(f.listing, t.listing) then t.dates else [])
  }

  /** Pairs each date with the granularity of its bucket. */
  function Tag(g: Granularity, dates: seq<DateTime>): (r: seq<(Granularity, DateTime)>)
    ensures |r| == |dates|
    ensures forall i :: 0 <= i < |r| ==> r[i] == (g, dates[i])
  {
    seq(|dates|, i requires 0 <= i < |dates| => (g, dates[i]))
  }

  /** All buckets of the range, hours first, then days, months and years. */
  function Buckets(en: Enumerators, from: DateTime, to: DateTime): seq<(Granularity, DateTime)> {
    Tag(Hour, Aligned(en, Hour, from, to)) + Tag(Day, Aligned(en, Day, from, to))
    + Tag(Month, Aligned(en, Month, from, to)) + Tag(Year, en.years(from, to).dates)
  }

  /** The units of the range, `Hour::create($event, $date)` and so on. */
  function RangeUnits(en: Enumerators, ref: EventRef, from: DateTime, to: DateTime): (units: seq<UnitOfTime>)
    ensures |units| == |Buckets(en, from, to)|
    ensures forall i :: 0 <= i < |units| ==>
              units[i] == UnitsOfTime.Create(Buckets(en, from, to)[i].0, ref, Buckets(en, from, to)[i].1)
  {
    var bs := Buckets(en, from, to);
    seq(|bs|, i requires 0 <= i < |bs| => UnitsOfTime.Create(bs[i].0, ref, bs[i].1))
  }

  /** The hashed keys of plain units. */
  function UnitKeys(cfg: Config, units: seq<UnitOfTime>): (keys: seq<string>)
    ensures |keys| == |units|
    ensures forall i :: 0 <= i < |units| ==> keys[i] == Hash(cfg, OfUnit(BitUnit(units[i])))
  {
    seq(|units|, i requires 0 <= i < |units| => Hash(cfg, OfUnit(BitUnit(units[i]))))
  }

  /** One `bitOpOr($destKey, $unit, $destKey)` per unit, in order. */
  function OrAll(cfg: Config, dest: Key, units: seq<UnitOfTime>): (cs: seq<Command>)
    ensures |cs| == 3 * |units|
  {
    if units == [] then []
    else BitOpPlan(cfg, Or, OfKey(dest), OfUnit(BitUnit(units[0])), OfKey(dest)) + OrAll(cfg, dest, units[1..])
  }

  /** Block `i` of three commands of `OrAll` is the OR of unit `i` into the destination. */
  lemma {:induction false} OrAllBlock(cfg: Config, dest: Key, units: seq<UnitOfTime>, i: nat)
    requires i < |units|
    ensures OrAll(cfg, dest, units)[3 * i..3 * i + 3] == BitOpPlan(cfg, Or, OfKey(dest), OfUnit(BitUnit(units[i])), OfKey(dest))
    decreases i
  {
    if i == 0 {
      OrAllFirstBlock(cfg, dest, units);
    } else {
      var j := i - 1;
      OrAllBlock(cfg, dest, units[1..], j);
      OrAllLaterBlock(cfg, dest, units, i, j);
    }
  }

  lemma OrAllFirstBlock(cfg: Config, dest: Key, units: seq<UnitOfTime>)
    requires units != []
    ensures OrAll(cfg, dest, units)[0..3] == BitOpPlan(cfg, Or, OfKey(dest), OfUnit(BitUnit(units[0])), OfKey(dest))
  {
    OrAllUnfold(cfg, dest, units);
    FirstBlock(BitOpPlan(cfg, Or, OfKey(dest), OfUnit(BitUnit(units[0])), OfKey(dest)), OrAll(cfg, dest, units[1..]));
  }

  /** Block `i > 0` of the whole list is block `i - 1` of its tail. */
  lemma OrAllLaterBlock(cfg: Config, dest: Key, units: seq<UnitOfTime>, i: nat, j: nat)
    requires i == j + 1 && i < |units|
    ensures OrAll(cfg, dest, units)[3 * i..3 * i + 3] == OrAll(cfg, dest, units[1..])[3 * j..3 * j + 3]
    ensures units[1..][j] == units[i]
  {
    OrAllUnfold(cfg, dest, units);
    BlockAfterFirst(BitOpPlan(cfg, Or, OfKey(dest), OfUnit(BitUnit(units[0])), OfKey(dest)), OrAll(cfg, dest, units[1..]), i, j);
  }

  lemma OrAllUnfold(cfg: Config, dest: Key, units: seq<UnitOfTime>)
    requires units != []
    ensures OrAll(cfg, dest, units) ==
            BitOpPlan(cfg, Or, OfKey(dest), OfUnit(BitUnit(units[0])), OfKey(dest)) + OrAll(cfg, dest, units[1..])
  {
  }

  /** The first block of three commands of `first + rest`, when `first` has three. */
  lemma FirstBlock(first: seq<Command>, rest: seq<Command>)
    requires |first| == 3
    ensures (first + rest)[0..3] == first
  {
  }

  /** Block `i = j + 1` of three commands after a first block of three is block `j` of the rest. */
  lemma BlockAfterFirst(first: seq<Command>, rest: seq<Command>, i: nat, j: nat)
    requires |first| == 3 && i == j + 1 && 3 * j + 3 <= |rest|
    ensures (first + rest)[3 * i..3 * i + 3] == rest[3 * j..3 * j + 3]
  {
  }

  /** `bitDateRange($event, $destKey, $from, $to)`. */
  function BitDateRange(cfg: Config, en: Enumerators, ev: Event, dest: Key, from: DateTime, to: DateTime): (r: Result<seq<Command>, Error>)
    ensures r.Failure? <==> Later(from, to)
    ensures r.Failure? ==> r.error == InvalidRange
    ensures r.Success? ==>
              var d := Hash(cfg, OfKey(dest));
              var cs := r.value;
              && |cs| == 3 + 3 * |Buckets(en, from, to)|
              && cs[0] == Del([d])
              && cs[|cs| - 2] == SAdd(TempIndexKey(cfg), d)
              && cs[|cs| - 1] == Expire(d, cfg.expireTimeout)
    ensures r.Success? ==>
              var units := RangeUnits(en, EventObject(ev), from, to);
              forall i :: 0 <= i < |units| ==>
                r.value[1 + 3 * i..4 + 3 * i] == BitOpPlan(cfg, Or, OfKey(dest), OfUnit(BitUnit(units[i])), OfKey(dest))
  {
    if Later(from, to) then Failure(InvalidRange)
    else
      Success(RangePlan(cfg, dest, RangeUnits(en, EventObject(ev), from, to)))
  }

  /** Clear the destination, OR every unit into it, then register and expire it. */
  function RangePlan(cfg: Config, dest: Key, units: seq<UnitOfTime>): (cs: seq<Command>)
    ensures |cs| == 3 + 3 * |units|
    ensures forall i :: 0 <= i < |units| ==>
              cs[1 + 3 * i..4 + 3 * i] == BitOpPlan(cfg, Or, OfKey(dest), OfUnit(BitUnit(units[i])), OfKey(dest))
  {
    var d := Hash(cfg, OfKey(dest));
    var ors := OrAll(cfg, dest, units);
    var cs := [Del([d])] + ors + [SAdd(TempIndexKey(cfg), d), Expire(d, cfg.expireTimeout)];
    forall i | 0 <= i < |units|
      ensures cs[1 + 3 * i..4 + 3 * i] == BitOpPlan(cfg, Or, OfKey(dest), OfUnit(BitUnit(units[i])), OfKey(dest))
    {
      assert cs[1 + 3 * i..4 + 3 * i] == ors[3 * i..3 * i + 3];
      OrAllBlock(cfg, dest, units, i);
    }
    cs
  }

  /** The union of the bit-vectors at `keys`. */
  function UnionOf(b: Bitmaps, keys: seq<string>): (ids: set<nat>)
    ensures forall x :: x in ids <==> exists i :: 0 <= i < |keys| && x in BitsAt(b, keys[i])
  {
    if keys == [] then {}
    else
      var rest := UnionOf(b, keys[1..]);
      assert forall i :: 0 < i < |keys| ==> keys[i] == keys[1..][i - 1];
      BitsAt(b, keys[0]) + rest
  }

  lemma {:induction false} UnionOfAgrees(b: Bitmaps, c: Bitmaps, keys: seq<string>)
    requires forall i :: 0 <= i < |keys| ==> BitsAt(b, keys[i]) == BitsAt(c, keys[i])
    ensures UnionOf(b, keys) == UnionOf(c, keys)
  {
    if keys != [] {
      assert forall i :: 0 <= i < |keys| - 1 ==> keys[1..][i] == keys[i + 1];
      UnionOfAgrees(b, c, keys[1..]);
    }
  }

  /** The OR steps accumulate the sources into the destination and touch nothing else. */
  lemma {:induction false} OrAllEffect(cfg: Config, dest: Key, units: seq<UnitOfTime>, b: Bitmaps, k: string)
    requires cfg.expireTimeout > 0
    requires forall i :: 0 <= i < |units| ==> Hash(cfg, OfUnit(BitUnit(units[i]))) != Hash(cfg, OfKey(dest))
    ensures var after := ApplyAll(b, OrAll(cfg, dest, units));
            var d := Hash(cfg, OfKey(dest));
            BitsAt(after, k) == if k == d then BitsAt(b, d) + UnionOf(b, UnitKeys(cfg, units)) else BitsAt(b, k)
  {
    var d := Hash(cfg, OfKey(dest));
    if units != [] {
      var first := OfUnit(BitUnit(units[0]));
      var step := BitOpPlan(cfg, Or, OfKey(dest), first, OfKey(dest));
      var b1 := ApplyAll(b, step);
      ApplyAllAppend(b, step, OrAll(cfg, dest, units[1..]));
      TailAvoidsDest(cfg, dest, units);
      OrAllEffect(cfg, dest, units[1..], b1, k);
      FirstStepKeepsSources(cfg, dest, units, b);
      BitOpResult(cfg, Or, OfKey(dest), first, OfKey(dest), b, k);
      BitOpResult(cfg, Or, OfKey(dest), first, OfKey(dest), b, d);
      UnionOfCons(cfg, b, units);
    }
  }

  lemma TailAvoidsDest(cfg: Config, dest: Key, units: seq<UnitOfTime>)
    requires units != []
    requires forall i :: 0 <= i < |units| ==> Hash(cfg, OfUnit(BitUnit(units[i]))) != Hash(cfg, OfKey(dest))
    ensures forall i :: 0 <= i < |units[1..]| ==> Hash(cfg, OfUnit(BitUnit(units[1..][i]))) != Hash(cfg, OfKey(dest))
  {
    forall j | 0 <= j < |units| - 1
      ensures Hash(cfg, OfUnit(BitUnit(units[1..][j]))) != Hash(cfg, OfKey(dest))
    {
      assert units[1..][j] == units[j + 1];
    }
  }

  /** The first OR step leaves every later source as it was. */
  lemma FirstStepKeepsSources(cfg: Config, dest: Key, units: seq<UnitOfTime>, b: Bitmaps)
    requires units != [] && cfg.expireTimeout > 0
    requires forall i :: 0 <= i < |units| ==> Hash(cfg, OfUnit(BitUnit(units[i]))) != Hash(cfg, OfKey(dest))
    ensures var b1 := ApplyAll(b, BitOpPlan(cfg, Or, OfKey(dest), OfUnit(BitUnit(units[0])), OfKey(dest)));
            UnionOf(b1, UnitKeys(cfg, units[1..])) == UnionOf(b, UnitKeys(cfg, units[1..]))
  {
    var first := OfUnit(BitUnit(units[0]));
    var b1 := ApplyAll(b, BitOpPlan(cfg, Or, OfKey(dest), first, OfKey(dest)));
    var keys := UnitKeys(cfg, units);
    var rest := UnitKeys(cfg, units[1..]);
    forall i | 0 <= i < |rest|
      ensures BitsAt(b1, rest[i]) == BitsAt(b, rest[i])
    {
      assert rest[i] == keys[i + 1];
      BitOpResult(cfg, Or, OfKey(dest), first, OfKey(dest), b, rest[i]);
    }
    UnionOfAgrees(b1, b, rest);
  }

  lemma UnionOfCons(cfg: Config, b: Bitmaps, units: seq<UnitOfTime>)
    requires units != []
    ensures UnionOf(b, UnitKeys(cfg, units))
            == BitsAt(b, Hash(cfg, OfUnit(BitUnit(units[0])))) + UnionOf(b, UnitKeys(cfg, units[1..]))
  {
    var keys := UnitKeys(cfg, units);
    assert UnitKeys(cfg, units[1..]) == keys[1..];
  }

  lemma RangePlanIsUnion(cfg: Config, dest: Key, units: seq<UnitOfTime>, b: Bitmaps, k: string)
    requires cfg.expireTimeout > 0
    requires forall i :: 0 <= i < |units| ==> Hash(cfg, OfUnit(BitUnit(units[i]))) != Hash(cfg, OfKey(dest))
    ensures var d := Hash(cfg, OfKey(dest));
            BitsAt(ApplyAll(b, RangePlan(cfg, dest, units)), k)
              == if k == d then UnionOf(b, UnitKeys(cfg, units)) else BitsAt(b, k)
  {
    var d := Hash(cfg, OfKey(dest));
    var b0 := Apply(b, Del([d]));
    RangePlanPhases(cfg, dest, units, b);
    ClearedSources(cfg, units, b, d);
    ApplyReads(b, Del([d]), k);
    ApplyReads(b, Del([d]), d);
    OrAllEffect(cfg, dest, units, b0, k);
  }

  /** The plan runs as the DEL, then the OR steps, and its last two commands leave every
      bit-vector as it was. */
  lemma RangePlanPhases(cfg: Config, dest: Key, units: seq<UnitOfTime>, b: Bitmaps)
    requires cfg.expireTimeout > 0
    ensures var d := Hash(cfg, OfKey(dest));
            ApplyAll(b, RangePlan(cfg, dest, units)) == ApplyAll(Apply(b, Del([d])), OrAll(cfg, dest, units))
  {
    var d := Hash(cfg, OfKey(dest));
    var ors := OrAll(cfg, dest, units);
    var tail := [SAdd(TempIndexKey(cfg), d), Expire(d, cfg.expireTimeout)];
    assert RangePlan(cfg, dest, units) == ([Del([d])] + ors) + tail;
    ApplyOne(b, Del([d]));
    ApplyAllAppend(b, [Del([d])] + ors, tail);
    ApplyAllAppend(b, [Del([d])], ors);
    var b1 := ApplyAll(Apply(b, Del([d])), ors);
    assert Apply(b1, tail[0]) == b1;
    assert tail[1..] == [Expire(d, cfg.expireTimeout)];
    ApplyOne(b1, Expire(d, cfg.expireTimeout));
    assert ApplyAll(b1, tail) == ApplyAll(b1, tail[1..]);
  }

  /** Deleting the destination leaves the sources' union as it was. */
  lemma ClearedSources(cfg: Config, units: seq<UnitOfTime>, b: Bitmaps, d: string)
    requires forall i :: 0 <= i < |units| ==> Hash(cfg, OfUnit(BitUnit(units[i]))) != d
    ensures UnionOf(Apply(b, Del([d])), UnitKeys(cfg, units)) == UnionOf(b, UnitKeys(cfg, units))
  {
    var keys := UnitKeys(cfg, units);
    forall i | 0 <= i < |keys|
      ensures BitsAt(Apply(b, Del([d])), keys[i]) == BitsAt(b, keys[i])
    {
      ApplyReads(b, Del([d]), keys[i]);
    }
    UnionOfAgrees(Apply(b, Del([d])), b, keys);
  }

  /** With a positive timeout, and a destination that is not itself one of the buckets, the
      destination ends up holding exactly the union of the range's bucket bit-vectors as they
      were before, and every other bit-vector is left alone. */
  lemma BitDateRangeIsUnion(cfg: Config, en: Enumerators, ev: Event, dest: Key, from: DateTime, to: DateTime, b: Bitmaps, k: string)
    requires !Later(from, to) && cfg.expireTimeout > 0
    requires var units := RangeUnits(en, EventObject(ev), from, to);
             forall i :: 0 <= i < |units| ==> Hash(cfg, OfUnit(BitUnit(units[i]))) != Hash(cfg, OfKey(dest))
    ensures BitDateRange(cfg, en, ev, dest, from, to).Success?
    ensures var units := RangeUnits(en, EventObject(ev), from, to);
            var d := Hash(cfg, OfKey(dest));
            var after := ApplyAll(b, BitDateRange(cfg, en, ev, dest, from, to).value);
            BitsAt(after, k) == if k == d then UnionOf(b, UnitKeys(cfg, units)) else BitsAt(b, k)
  {
    RangePlanIsUnion(cfg, dest, RangeUnits(en, EventObject(ev), from, to), b, k);
  }

  /** Under the default prefixes the buckets (unit keys) and the destination (a temporary key)
      can never coincide, so the range result is always the union. */
  lemma DefaultBitDateRangeIsUnion(en: Enumerators, ev: Event, dest: Key, from: DateTime, to: DateTime, b: Bitmaps, k: string)
    requires !Later(from, to)
    ensures BitDateRange(DefaultConfig, en, ev, dest, from, to).Success?
    ensures var units := RangeUnits(en, EventObject(ev), from, to);
            var d := Hash(DefaultConfig, OfKey(dest));
            var after := ApplyAll(b, BitDateRange(DefaultConfig, en, ev, dest, from, to).value);
            BitsAt(after, k) == if k == d then UnionOf(b, UnitKeys(DefaultConfig, units)) else BitsAt(b, k)
  {
    var units := RangeUnits(en, EventObject(ev), from, to);
    forall i | 0 <= i < |units|
      ensures Hash(DefaultConfig, OfUnit(BitUnit(units[i]))) != Hash(DefaultConfig, OfKey(dest))
    {
      DefaultPrefixesSeparate(OfUnit(BitUnit(units[i])), OfKey(dest));
    }
    BitDateRangeIsUnion(DefaultConfig, en, ev, dest, from, to, b, k);
  }

  /** The hashed keys of the Aggregation wrappers around `units`. */
  function AggregationKeys(cfg: Config, units: seq<UnitOfTime>): (keys: seq<string>)
    ensures |keys| == |units|
    ensures forall i :: 0 <= i < |units| ==>
              keys[i] == cfg.prefixKey + UnitsOfTime.ToString(units[i]) + ":aggr"
  {
    seq(|units|, i requires 0 <= i < |units| => Hash(cfg, OfUnit(AggregationUnit(Aggregations.Create(units[i])))))
  }

  /** `aggregationDateRange($event, $destKey, $from, $to)`: a missing `to` means now. */
  function AggregationDateRange(cfg: Config, en: Enumerators, ref: EventRef, dest: AggregationKey,
                                from: DateTime, to: Option<DateTime>, now: DateTime): (r: Result<seq<Command>, Error>)
    ensures var upTo := to.GetOr(now);
            r.Failure? <==> Later(from, upTo)
    ensures r.Failure? ==> r.error == InvalidRange
    ensures r.Success? ==>
              var upTo := to.GetOr(now);
              var d := Hash(cfg, OfAggregationKey(dest));
              var units := RangeUnits(en, ref, from, upTo);
              r.value == AggregationCommands(cfg, d, AggregationKeys(cfg, units))
  {
    var upTo := if to.None? then now else to.value;
    if Later(from, upTo) then Failure(InvalidRange)
    else
      var d := Hash(cfg, OfAggregationKey(dest));
      var units := RangeUnits(en, ref, from, upTo);
      Success(AggregationCommands(cfg, d, AggregationKeys(cfg, units)))
  }

  /** Clear the destination, union the accumulators into it, index it as temporary and let
      it expire. */
  function AggregationCommands(cfg: Config, d: string, keys: seq<string>): (cs: seq<Command>)
    ensures |cs| == 4 && cs[0] == Del([d]) && cs[2] == SAdd(TempIndexKey(cfg), d)
    ensures forall i :: 0 <= i < 4 ==> (cs[i].ZUnionStore? <==> i == 1)
    ensures cs[1].ZUnionStore? && cs[1].dest == d && cs[1].count == |keys| && cs[1].sources == keys
    ensures cs[3] == Expire(d, cfg.expireTimeout)
  {
    [Del([d]), ZUnionStore(d, |keys|, keys), SAdd(TempIndexKey(cfg), d), Expire(d, cfg.expireTimeout)]
  }

  /** The one ZUNIONSTORE names every bucket of the range once, in order hours, days, months,
      years, each as the accumulator key of that bucket for the event's name. */
  lemma AggregationSources(cfg: Config, en: Enumerators, ref: EventRef, dest: AggregationKey,
                           from: DateTime, to: DateTime, now: DateTime)
    requires !Later(from, to)
    ensures var r := AggregationDateRange(cfg, en, ref, dest, from, Some(to), now);
            var bs := Buckets(en, from, to);
            && r.Success?
            && (forall i :: 0 <= i < 4 ==> (r.value[i].ZUnionStore? <==> i == 1))
            && r.value[1].count == |bs| == |r.value[1].sources|
            && forall i :: 0 <= i < |bs| ==>
                 r.value[1].sources[i] == BucketAccumulator(cfg, ref, bs[i].0, bs[i].1)
  {
    var bs := Buckets(en, from, to);
    var keys := AggregationKeys(cfg, RangeUnits(en, ref, from, to));
    var r := AggregationDateRange(cfg, en, ref, dest, from, Some(to), now);
    var cs := AggregationCommands(cfg, Hash(cfg, OfAggregationKey(dest)), keys);
    assert r.Success? && r.value == cs;
    assert |keys| == |bs| && cs[1].sources == keys;
    assert forall i :: 0 <= i < |bs| ==> keys[i] == BucketAccumulator(cfg, ref, bs[i].0, bs[i].1) by {
      BucketAccumulators(cfg, en, ref, from, to);
    }
  }

  /** The accumulator key of one bucket of the event. */
  function BucketAccumulator(cfg: Config, ref: EventRef, g: Granularity, d: DateTime): string {
    cfg.prefixKey + NameText(NameOf(ref)) + ":" + Label(g, d) + ":aggr"
  }

  lemma BucketAccumulators(cfg: Config, en: Enumerators, ref: EventRef, from: DateTime, to: DateTime)
    ensures var bs := Buckets(en, from, to);
            var keys := AggregationKeys(cfg, RangeUnits(en, ref, from, to));
            forall i :: 0 <= i < |bs| ==> keys[i] == BucketAccumulator(cfg, ref, bs[i].0, bs[i].1)
  {
    AccumulatorsOf(cfg, ref, Buckets(en, from, to), RangeUnits(en, ref, from, to));
  }

  lemma AccumulatorsOf(cfg: Config, ref: EventRef, bs: seq<(Granularity, DateTime)>, units: seq<UnitOfTime>)
    requires |units| == |bs|
    requires forall i :: 0 <= i < |units| ==> units[i] == UnitsOfTime.Create(bs[i].0, ref, bs[i].1)
    ensures forall i :: 0 <= i < |bs| ==> AggregationKeys(cfg, units)[i] == BucketAccumulator(cfg, ref, bs[i].0, bs[i].1)
  {
    var keys := AggregationKeys(cfg, units);
    forall i | 0 <= i < |bs|
      ensures keys[i] == BucketAccumulator(cfg, ref, bs[i].0, bs[i].1)
    {
      AccumulatorOfUnit(cfg, units[i]);
    }
  }

  lemma AccumulatorOfUnit(cfg: Config, u: UnitOfTime)
    ensures Hash(cfg, OfUnit(AggregationUnit(Aggregations.Create(u))))
            == cfg.prefixKey + NameText(u.eventName) + ":" + Label(u.granularity, u.dateTime) + ":aggr"
  {
    var w := NameText(u.eventName) + ":" + Label(u.granularity, u.dateTime);
    var a := Aggregations.Create(u);
    assert UnitsOfTime.ToString(u) == w;
    Aggregations.KeyIsInnerKeyWithSuffix(a);
    assert Text(OfUnit(AggregationUnit(a))) == w + ":aggr";
  }
}

=== FILE: digits.dfy ===
/** Zero-padded decimal numerals, as PHP's date formats `Y`, `m`, `d`, `H` and `W` print them,
    together with the reading that inverts them. */
module Digits {

  predicate IsDigit(c: char) {
    '0' <= c <= '9'
  }

  predicate AllDigits(s: string) {
    forall i :: 0 <= i < |s| ==> IsDigit(s[i])
  }

  function DigitChar(n: int): (c: char)
    requires 0 <= n <= 9
    ensures IsDigit(c)
    ensures c as int - '0' as int == n
  {
    ('0' as int + n) as char
  }

  function DigitValue(c: char): (n: int)
    requires IsDigit(c)
    ensures 0 <= n <= 9
    ensures DigitChar(n) == c
  {
    c as int - '0' as int
  }

  /** The value of a string of decimal digits, most significant first. */
  function ReadDecimal(s: string): nat
    requires AllDigits(s)
  {
    if s == [] then 0 else ReadDecimal(s[..|s| - 1]) * 10 + DigitValue(s[|s| - 1])
  }

  /** Two digits with a leading zero below 10 (`m`, `d`, `H`, `W`). */
  function TwoDigits(n: int): (s: string)
    requires 0 <= n <= 99
    ensures |s| == 2 && AllDigits(s)
    ensures ReadDecimal(s) == n
  {
    var s := [DigitChar(n / 10), DigitChar(n % 10)];
    assert s[..1] == [DigitChar(n / 10)];
    assert ReadDecimal(s[..1]) == n / 10 by {
      assert s[..1][..0] == [];
    }
    s
  }

  /** Four digits (`Y` for the years 1000..9999 this model covers). */
  function FourDigits(n: int): (s: string)
    requires 0 <= n <= 9999
    ensures |s| == 4 && AllDigits(s)
    ensures ReadDecimal(s) == n
  {
    var s := [DigitChar(n / 1000), DigitChar(n / 100 % 10), DigitChar(n / 10 % 10), DigitChar(n % 10)];
    var s1, s2, s3 := s[..1], s[..2], s[..3];
    assert s3[..2] == s2 && s2[..1] == s1 && s1[..0] == [];
    assert ReadDecimal(s1) == n / 1000;
    assert ReadDecimal(s2) == n / 100;
    assert ReadDecimal(s3) == n / 10;
    s
  }
}

=== FILE: events.dfy ===
/** Event: a named tracked activity. Its initializer is a plain method named `construct`
    rather than PHP's constructor `__construct`, so `new Event($name)` drops the name and leaves
    the key null; only an explicit `construct($key)` call sets it. */
module Events {
  import opened Wrappers

  /** `key` is `None` while the PHP property is still null. */
  datatype Event = Event(key: Option<string>)

  /** What callers pass where the source accepts "an event": a raw name, or an object
      implementing EventInterface (here always an Event). */
  datatype EventRef = Named(name: string) | EventObject(event: Event)

  /** `new Event($name)`: no constructor runs, so the argument is ignored. */
  function New(name: string): (e: Event)
    ensures e.key.None?
  {
    Event(None)
  }

  /** `$event->construct($key)`. */
  function Construct(e: Event, key: string): (r: Event)
    ensures GetKey(r) == Some(key)
  {
    e.(key := Some(key))
  }

  function GetKey(e: Event): Option<string> {
    e.key
  }

  /** `Event::create`: an Event is returned as it is; anything else goes through `new Event`. */
  function Create(ref: EventRef): (e: Event)
    ensures ref.EventObject? ==> e == ref.event
    ensures ref.Named? ==> GetKey(e).None?
  {
    match ref
    case EventObject(ev) => ev
    case Named(name) => New(name)
  }

  /** Creating from something already created changes nothing. */
  lemma CreateIsIdempotent(ref: EventRef)
    ensures Create(EventObject(Create(ref))) == Create(ref)
  {
  }

  /** The event name a unit of time stores (AbstractUnitOfTime's constructor): the event's key
      for an EventInterface argument, the raw argument otherwise. */
  function NameOf(ref: EventRef): (n: Option<string>)
    ensures ref.Named? ==> n == Some(ref.name)
    ensures ref.EventObject? ==> n == GetKey(ref.event)
  {
    match ref
    case Named(name) => Some(name)
    case EventObject(ev) => GetKey(ev)
  }

  /** Whatever name is given to `new Event`, units built from it see a null name. */
  lemma NewEventHasNoName(name: string)
    ensures NameOf(EventObject(New(name))) == None
    ensures NameOf(EventObject(Construct(New(name), name))) == Some(name)
  {
  }
}

=== FILE: keys.dfy ===
/** The two key classes: Key, whose string form is the wrapped value verbatim, and
    AggregationKey, whose string form appends `:aggr` so that a bucket's score accumulator
    never shares an address with the same bucket's bit-vector. */
module Keys {

  datatype Key = Key(value: string)

  /** AggregationKey wraps a Key object or a raw string; `wrapped` is its string form. */
  datatype AggregationKey = AggregationKey(wrapped: string)

  const AggregationSuffix: string := ":aggr"

  /** `Key::__toString`. */
  function KeyText(k: Key): string {
    k.value
  }

  /** `AggregationKey::__toString`: `sprintf("%s:%s", key, 'aggr')`. */
  function AggregationKeyText(k: AggregationKey): (s: string)
    ensures |s| == |k.wrapped| + 5
    ensures s[..|k.wrapped|] == k.wrapped && s[|k.wrapped|..] == AggregationSuffix
  {
    k.wrapped + ":" + "aggr"
  }

  /** Distinct keys print distinct strings. */
  lemma KeyTextInjective(a: Key, b: Key)
    ensures KeyText(a) == KeyText(b) <==> a == b
  {
  }

  /** Distinct wrapped strings give distinct aggregation keys. */
  lemma AggregationKeyTextInjective(a: AggregationKey, b: AggregationKey)
    ensures AggregationKeyText(a) == AggregationKeyText(b) <==> a.wrapped == b.wrapped
  {
    if AggregationKeyText(a) == AggregationKeyText(b) {
      assert a.wrapped == AggregationKeyText(a)[..|a.wrapped|];
    }
  }

  /** A Key and an AggregationKey built from the same string never print the same. */
  lemma KeyAndAggregationKeyDiffer(s: string)
    ensures KeyText(Key(s)) != AggregationKeyText(AggregationKey(s))
  {
  }
}

=== FILE: labels.dfy ===
/** The bucket labels each unit of time prints for its date (`getDateTimeFormated`), and a
    reader for each format that recovers the calendar fields the label encodes. */
module Labels {
  import opened Wrappers
  import opened Calendar
  import opened Digits

  /** `format('Y')`. */
  function YearText(d: DateTime): string {
    FourDigits(d.year)
  }

  /** `format('m')`. */
  function MonthText(d: DateTime): string {
    TwoDigits(d.month)
  }

  /** `format('d')`. */
  function DayText(d: DateTime): string {
    TwoDigits(d.day)
  }

  /** `format('H')`, the 24-hour clock. */
  function HourText(d: DateTime): string {
    TwoDigits(d.hour)
  }

  /** `format('W')`. */
  function WeekText(d: DateTime): string {
    TwoDigits(IsoWeek(d))
  }

  /** Hour: `Y-m-d-H`. */
  function HourLabel(d: DateTime): (s: string)
    ensures |s| == 13 && s[4] == '-' && s[7] == '-' && s[10] == '-'
    ensures DayLabel(d) == s[..10]
  {
    YearText(d) + "-" + MonthText(d) + "-" + DayText(d) + "-" + HourText(d)
  }

  /** Day: `Y-m-d`. */
  function DayLabel(d: DateTime): (s: string)
    ensures |s| == 10 && s[4] == '-' && s[7] == '-'
    ensures MonthLabel(d) == s[..7]
  {
    YearText(d) + "-" + MonthText(d) + "-" + DayText(d)
  }

  /** Week: `Y-WW`: the CALENDAR year next to the ISO week number. */
  function WeekLabel(d: DateTime): (s: string)
    ensures |s| == 8 && s[4] == '-' && s[5] == 'W'
    ensures YearLabel(d) == s[..4]
  {
    YearText(d) + "-W" + WeekText(d)
  }

  /** Month: `Y-m`. */
  function MonthLabel(d: DateTime): (s: string)
    ensures |s| == 7 && s[4] == '-'
    ensures YearLabel(d) == s[..4]
  {
    YearText(d) + "-" + MonthText(d)
  }

  /** Year: `Y`. */
  function YearLabel(d: DateTime): (s: string)
    ensures |s| == 4 && AllDigits(s)
  {
    YearText(d)
  }

  /** Infinity: the constant `inf`, whatever the date. */
  function InfinityLabel(d: DateTime): string {
    "inf"
  }

  /** The decimal numeral at `s[i..j]`, if those characters are all digits. */
  function NumeralAt(s: string, i: int, j: int): Option<int>
    requires 0 <= i <= j <= |s|
  {
    if AllDigits(s[i..j]) then Some(ReadDecimal(s[i..j])) else None
  }

  /** Reads `YYYY-MM-DD-HH` back into (year, month, day, hour). */
  function ParseHourLabel(s: string): Option<(int, int, int, int)> {
    if |s| != 13 || s[4] != '-' || s[7] != '-' || s[10] != '-' then None
    else
      var y, m, d, h := NumeralAt(s, 0, 4), NumeralAt(s, 5, 7), NumeralAt(s, 8, 10), NumeralAt(s, 11, 13);
      if y.Some? && m.Some? && d.Some? && h.Some? then Some((y.value, m.value, d.value, h.value)) else None
  }

  /** Reads `YYYY-MM-DD` back into (year, month, day). */
  function ParseDayLabel(s: string): Option<(int, int, int)> {
    if |s| != 10 || s[4] != '-' || s[7] != '-' then None
    else
      var y, m, d := NumeralAt(s, 0, 4), NumeralAt(s, 5, 7), NumeralAt(s, 8, 10);
      if y.Some? && m.Some? && d.Some? then Some((y.value, m.value, d.value)) else None
  }

  /** Reads `YYYY-WNN` back into (calendar year, week number). */
  function ParseWeekLabel(s: string): Option<(int, int)> {
    if |s| != 8 || s[4] != '-' || s[5] != 'W' then None
    else
      var y, w := NumeralAt(s, 0, 4), NumeralAt(s, 6, 8);
      if y.Some? && w.Some? then Some((y.value, w.value)) else None
  }

  /** Reads `YYYY-MM` back into (year, month). */
  function ParseMonthLabel(s: string): Option<(int, int)> {
    if |s| != 7 || s[4] != '-' then None
    else
      var y, m := NumeralAt(s, 0, 4), NumeralAt(s, 5, 7);
      if y.Some? && m.Some? then Some((y.value, m.value)) else None
  }

  /** Reads `YYYY` back into the year. */
  function ParseYearLabel(s: string): Option<int> {
    if |s| != 4 then None else NumeralAt(s, 0, 4)
  }

  lemma HourLabelRoundTrip(d: DateTime)
    ensures ParseHourLabel(HourLabel(d)) == Some((d.year, d.month, d.day, d.hour))
  {
    var s := HourLabel(d);
    assert s[0..4] == YearText(d);
    assert s[5..7] == MonthText(d);
    assert s[8..10] == DayText(d);
    assert s[11..13] == HourText(d);
  }

  lemma DayLabelRoundTrip(d: DateTime)
    ensures ParseDayLabel(DayLabel(d)) == Some((d.year, d.month, d.day))
  {
    var s := DayLabel(d);
    assert s[0..4] == YearText(d);
    assert s[5..7] == MonthText(d);
    assert s[8..10] == DayText(d);
  }

  lemma WeekLabelRoundTrip(d: DateTime)
    ensures ParseWeekLabel(WeekLabel(d)) == Some((d.year, IsoWeek(d)))
  {
    var s := WeekLabel(d);
    assert s[0..4] == YearText(d);
    assert s[6..8] == WeekText(d);
  }

  lemma MonthLabelRoundTrip(d: DateTime)
    ensures ParseMonthLabel(MonthLabel(d)) == Some((d.year, d.month))
  {
    var s := MonthLabel(d);
    assert s[0..4] == YearText(d);
    assert s[5..7] == MonthText(d);
  }

  lemma YearLabelRoundTrip(d: DateTime)
    ensures ParseYearLabel(YearLabel(d)) == Some(d.year)
  {
    assert YearLabel(d)[0..4] == YearText(d);
  }

  /** Two dates share an hour label exactly when they agree on year, month, day and hour:
      minutes and seconds are ignored, and nothing else collides. */
  lemma HourLabelIdentifiesHour(a: DateTime, b: DateTime)
    ensures HourLabel(a) == HourLabel(b)
            <==> a.year == b.year && a.month == b.month && a.day == b.day && a.hour == b.hour
  {
    HourLabelRoundTrip(a);
    HourLabelRoundTrip(b);
  }

  /** Two dates share a day label exactly when they are the same calendar day. */
  lemma DayLabelIdentifiesDay(a: DateTime, b: DateTime)
    ensures DayLabel(a) == DayLabel(b) <==> a.year == b.year && a.month == b.month && a.day == b.day
  {
    DayLabelRoundTrip(a);
    DayLabelRoundTrip(b);
  }

  /** Two dates share a month label exactly when they are in the same month of the same year. */
  lemma MonthLabelIdentifiesMonth(a: DateTime, b: DateTime)
    ensures MonthLabel(a) == MonthLabel(b) <==> a.year == b.year && a.month == b.month
  {
    MonthLabelRoundTrip(a);
    MonthLabelRoundTrip(b);
  }

  /** Two dates share a year label exactly when they are in the same year. */
  lemma YearLabelIdentifiesYear(a: DateTime, b: DateTime)
    ensures YearLabel(a) == YearLabel(b) <==> a.year == b.year
  {
    YearLabelRoundTrip(a);
    YearLabelRoundTrip(b);
  }

  /** Two dates share a week label exactly when they have the same calendar year and the same
      ISO week number. */
  lemma WeekLabelIdentifiesYearAndWeek(a: DateTime, b: DateTime)
    ensures WeekLabel(a) == WeekLabel(b) <==> a.year == b.year && IsoWeek(a) == IsoWeek(b)
  {
    WeekLabelRoundTrip(a);
    WeekLabelRoundTrip(b);
  }

  /** The year label is a prefix of the month, day and hour labels of the same date, the month
      label of the day label and the day label of the hour label. */
  lemma LabelsNest(d: DateTime)
    ensures YearLabel(d) <= MonthLabel(d) <= DayLabel(d) <= HourLabel(d)
    ensures YearLabel(d) <= WeekLabel(d)
  {
  }

  lemma DayLabelExample()
    ensures DayLabel(DateFields(2024, 3, 7, 15, 30, 0)) == "2024-03-07"
    ensures HourLabel(DateFields(2024, 3, 7, 15, 30, 0)) == "2024-03-07-15"
  {
    assert FourDigits(2024) == "2024" && TwoDigits(3) == "03";
    assert TwoDigits(7) == "07" && TwoDigits(15) == "15";
  }

  /** 2024-12-30 is a Monday in week 1 of ISO year 2025, yet its label keeps the calendar year. */
  lemma LateDecemberExample()
    ensures WeekLabel(DateFields(2024, 12, 30, 0, 0, 0)) == "2024-W01"
  {
    LateDecemberWeek(DateFields(2024, 12, 30, 0, 0, 0));
    assert TwoDigits(1) == "01" && FourDigits(2024) == "2024";
  }

  lemma LateDecemberWeek(d: DateTime)
    requires d.year == 2024 && d.month == 12 && d.day == 30
    ensures IsoWeek(d) == 1 && MondayOf(d) == 739249
  {
    assert DayNumber(d) == 739249;
    assert Weekday(d) == 1 && Ordinal(d) == 365;
    assert WeeksInYear(2024) == 52;
  }

  /** 2021-01-01 is a Friday in week 53 of ISO year 2020. */
  lemma EarlyJanuaryExample()
    ensures WeekLabel(DateFields(2021, 1, 1, 0, 0, 0)) == "2021-W53"
  {
    EarlyJanuaryWeek(DateFields(2021, 1, 1, 0, 0, 0));
    assert TwoDigits(53) == "53" && FourDigits(2021) == "2021";
  }

  lemma EarlyJanuaryWeek(d: DateTime)
    requires d.year == 2021 && d.month == 1 && d.day == 1
    ensures IsoWeek(d) == 53
  {
    assert DayNumber(d) == 737790;
    assert Weekday(d) == 5 && Ordinal(d) == 1;
    assert DaysBeforeYear(2020) == 737424;
    assert WeeksInYear(2020) == 53;
  }

  /** 2024-01-01 is the Monday that starts week 1 of 2024. */
  lemma NewYearExample()
    ensures WeekLabel(DateFields(2024, 1, 1, 0, 0, 0)) == "2024-W01"
  {
    NewYearWeek(DateFields(2024, 1, 1, 0, 0, 0));
    assert TwoDigits(1) == "01" && FourDigits(2024) == "2024";
  }

  lemma NewYearWeek(d: DateTime)
    requires d.year == 2024 && d.month == 1 && d.day == 1
    ensures IsoWeek(d) == 1 && MondayOf(d) == 738885
  {
    assert DayNumber(d) == 738885;
    assert Weekday(d) == 1 && Ordinal(d) == 1;
  }

  /** The week label is not injective on ISO weeks: 2024-01-01 and 2024-12-30 lie in different
      ISO weeks (different Mondays) but print the same label. */
  lemma WeekLabelCollision()
    ensures var a, b := DateFields(2024, 1, 1, 0, 0, 0), DateFields(2024, 12, 30, 0, 0, 0);
            MondayOf(a) != MondayOf(b) && WeekLabel(a) == WeekLabel(b)
  {
    LateDecemberExample();
    NewYearExample();
    LateDecemberWeek(DateFields(2024, 12, 30, 0, 0, 0));
    NewYearWeek(DateFields(2024, 1, 1, 0, 0, 0));
  }

  /** Two dates of one calendar year that fall in the same ISO week print the same week label. */
  lemma SameWeekSameLabel(a: DateTime, b: DateTime)
    requires a.year == b.year && MondayOf(a) == MondayOf(b)
    ensures WeekLabel(a) == WeekLabel(b)
  {
    assert Ordinal(a) - Weekday(a) == MondayOf(a) - DaysBeforeYear(a.year);
    assert Ordinal(b) - Weekday(b) == MondayOf(b) - DaysBeforeYear(b.year);
    assert IsoWeek(a) == IsoWeek(b);
  }
}

=== FILE: store.dfy ===
/** An abstract Redis store, reduced to what the engine's results are stated against: each
    bit-vector key holds the set of offsets whose bit is 1, and each sorted-set key holds its
    (member, score) entries. Only the bit-vector side is transformed by commands; the engine
    only reads the sorted sets. */
module BitStore {
  import opened Wrappers
  import opened Commands

  type Bitmaps = map<string, set<nat>>

  datatype Store = Store(bits: Bitmaps, scores: map<string, seq<(nat, real)>>)

  /** The offsets set in the bit-vector at `k`; a missing key reads as all zeros. */
  function BitsAt(b: Bitmaps, k: string): (ids: set<nat>)
    ensures k !in b ==> ids == {}
  {
    if k in b then b[k] else {}
  }

  /** BITOP on two bit-vectors, as sets of one-bits. */
  function Combine(op: BitOperation, x: set<nat>, y: set<nat>): (r: set<nat>)
    ensures forall i :: i in r <==> match op
                                    case And => i in x && i in y
                                    case Or => i in x || i in y
                                    case Xor => (i in x) != (i in y)
  {
    match op
    case And => x * y
    case Or => x + y
    case Xor => (x - y) + (y - x)
  }

  /** The effect of one command on the bit-vectors. EXPIRE with a non-positive timeout deletes
      the key at once; a positive one leaves the contents readable until the timeout. Sorted-set
      commands, SADD and EXPIREAT do not change any bit-vector. */
  function Apply(b: Bitmaps, c: Command): Bitmaps {
    match c
    case SetBit(k, offset) => b[k := BitsAt(b, k) + {offset}]
    case BitOp(op, dest, x, y) => b[dest := Combine(op, BitsAt(b, x), BitsAt(b, y))]
    case Del(keys) => map k | k in b && k !in keys :: b[k]
    case Expire(k, seconds) => if seconds <= 0 then map j | j in b && j != k :: b[j] else b
    case _ => b
  }

  /** Issues the commands one after another. */
  function ApplyAll(b: Bitmaps, cs: seq<Command>): Bitmaps
    decreases |cs|
  {
    if cs == [] then b else ApplyAll(Apply(b, cs[0]), cs[1..])
  }

  lemma {:induction false} ApplyAllAppend(b: Bitmaps, xs: seq<Command>, ys: seq<Command>)
    ensures ApplyAll(b, xs + ys) == ApplyAll(ApplyAll(b, xs), ys)
    decreases |xs|
  {
    if xs == [] {
      assert xs + ys == ys;
    } else {
      assert (xs + ys)[1..] == xs[1..] + ys;
      ApplyAllAppend(Apply(b, xs[0]), xs[1..], ys);
    }
  }

  lemma ApplyOne(b: Bitmaps, c: Command)
    ensures ApplyAll(b, [c]) == Apply(b, c)
  {
    assert [c][1..] == [];
  }

  lemma ApplyThree(b: Bitmaps, c0: Command, c1: Command, c2: Command)
    ensures ApplyAll(b, [c0, c1, c2]) == Apply(Apply(Apply(b, c0), c1), c2)
  {
    var b1, b2 := Apply(b, c0), Apply(Apply(b, c0), c1);
    assert [c0, c1, c2][1..] == [c1, c2];
    assert ApplyAll(b, [c0, c1, c2]) == ApplyAll(b1, [c1, c2]);
    assert [c1, c2][1..] == [c2];
    assert ApplyAll(b1, [c1, c2]) == ApplyAll(b2, [c2]);
    ApplyOne(b2, c2);
  }

  /** What each command does to the key it targets, in terms of bits read afterwards. */
  lemma ApplyReads(b: Bitmaps, c: Command, k: string)
    ensures c.SetBit? ==> BitsAt(Apply(b, c), k) == if k == c.key then BitsAt(b, k) + {c.offset} else BitsAt(b, k)
    ensures c.BitOp? ==> BitsAt(Apply(b, c), k) == if k == c.dest then Combine(c.op, BitsAt(b, c.first), BitsAt(b, c.second)) else BitsAt(b, k)
    ensures c.Del? ==> BitsAt(Apply(b, c), k) == if k in c.keys then {} else BitsAt(b, k)
    ensures c.Expire? ==> BitsAt(Apply(b, c), k) == if k == c.key && c.seconds <= 0 then {} else BitsAt(b, k)
    ensures c.SAdd? || c.ZIncrBy? || c.ExpireAt? || c.ZUnionStore? ==> Apply(b, c) == b
  {
  }

  /** Commands that neither name `k` as a bit target nor delete it leave its bits alone. */
  predicate Untouched(c: Command, k: string) {
    match c
    case SetBit(key, _) => key != k
    case BitOp(_, dest, _, _) => dest != k
    case Del(keys) => k !in keys
    case Expire(key, seconds) => key != k || seconds > 0
    case _ => true
  }

  lemma {:induction false} UntouchedKeyKeepsBits(b: Bitmaps, cs: seq<Command>, k: string)
    requires forall i :: 0 <= i < |cs| ==> Untouched(cs[i], k)
    ensures BitsAt(ApplyAll(b, cs), k) == BitsAt(b, k)
    decreases |cs|
  {
    if cs != [] {
      ApplyReads(b, cs[0], k);
      UntouchedKeyKeepsBits(Apply(b, cs[0]), cs[1..], k);
    }
  }

  /** The score of `id` in the sorted set at `k`, if it is a member. */
  function ScoreOf(s: map<string, seq<(nat, real)>>, k: string, id: nat): (r: Option<real>)
    ensures r.Some? <==> k in s && exists i :: 0 <= i < |s[k]| && s[k][i].0 == id
  {
    if k in s then FirstScore(s[k], id) else None
  }

  function FirstScore(entries: seq<(nat, real)>, id: nat): (r: Option<real>)
    ensures r.Some? <==> exists i :: 0 <= i < |entries| && entries[i].0 == id
    ensures r.Some? ==> exists i :: 0 <= i < |entries| && entries[i] == (id, r.value)
  {
    if entries == [] then None
    else if entries[0].0 == id then Some(entries[0].1)
    else FirstScore(entries[1..], id)
  }

  /** All entries of the sorted set at `k`; a missing key reads as empty. */
  function EntriesAt(s: map<string, seq<(nat, real)>>, k: string): seq<(nat, real)> {
    if k in s then s[k] else []
  }
}

=== FILE: units_of_time.dfy ===
/** AbstractUnitOfTime and its six subclasses (Hour, Day, Week, Month, Year, Infinity), as one
    datatype tagged by granularity, plus Event::getUnitsOfTime, which needs both. */
module UnitsOfTime {
  import opened Wrappers
  import opened Calendar
  import opened Labels
  import opened Events
  import opened Keys

  datatype Granularity = Hour | Day | Week | Month | Year | Infinity

  /** What `setExpires` may hold: null, an absolute DateTime, or a number of seconds. */
  datatype Expiry = NoExpiry | ExpiresAt(moment: DateTime) | ExpiresAfter(seconds: int) {

    /** PHP truthiness of the value: null and 0 are false, any DateTime object is true. */
    predicate IsSet() {
      match this
      case NoExpiry => false
      case ExpiresAt(_) => true
      case ExpiresAfter(s) => s != 0
    }
  }

  /** A unit of time: the granularity stands for the concrete class; `eventName` is `None`
      when the PHP property is null. */
  datatype UnitOfTime = UnitOfTime(granularity: Granularity, eventName: Option<string>, dateTime: DateTime, expires: Expiry)

  /** `getDateTimeFormated`, dispatched on the concrete class. */
  function Label(g: Granularity, d: DateTime): string {
    match g
    case Hour => HourLabel(d)
    case Day => DayLabel(d)
    case Week => WeekLabel(d)
    case Month => MonthLabel(d)
    case Year => YearLabel(d)
    case Infinity => InfinityLabel(d)
  }

  /** `sprintf('%s', $name)`: a null name prints as the empty string. */
  function NameText(n: Option<string>): string {
    n.GetOr("")
  }

  /** `new Hour($event, $dateTime)` and the other constructors, and the static `create`. */
  function Create(g: Granularity, ref: EventRef, d: DateTime): (u: UnitOfTime)
    ensures u.granularity == g && u.eventName == NameOf(ref) && u.dateTime == d
    ensures u.expires == NoExpiry
  {
    UnitOfTime(g, NameOf(ref), d, NoExpiry)
  }

  /** A unit built from an Event object stores that event's key, null or not, as its name, at
      every granularity and date. */
  lemma UnitNameIsEventKey(g: Granularity, e: Event, d: DateTime)
    ensures GetUnitOfTimeName(Create(g, EventObject(e), d)) == Events.GetKey(e)
  {
  }

  /** `getUnitOfTimeName`. */
  function GetUnitOfTimeName(u: UnitOfTime): Option<string> {
    u.eventName
  }

  /** `getDateTime`. */
  function GetDateTime(u: UnitOfTime): DateTime {
    u.dateTime
  }

  /** `getExpires`; Infinity overrides it to answer null whatever was set. */
  function GetExpires(u: UnitOfTime): (e: Expiry)
    ensures u.granularity == Infinity ==> e == NoExpiry
    ensures u.granularity != Infinity ==> e == u.expires
  {
    if u.granularity == Infinity then NoExpiry else u.expires
  }

  /** `setExpires`: stores the value and changes nothing else. */
  function SetExpires(u: UnitOfTime, e: Expiry): (r: UnitOfTime)
    ensures GetExpires(r) == (if u.granularity == Infinity then NoExpiry else e)
    ensures r.granularity == u.granularity && r.eventName == u.eventName && r.dateTime == u.dateTime
  {
    u.(expires := e)
  }

  /** `modify($d)`: `static::create($this->eventName, $d)`, a fresh unit of the same class and
      name at the new date, so the expiry is back to null. */
  function Modify(u: UnitOfTime, d: DateTime): (r: UnitOfTime)
    ensures r.granularity == u.granularity && r.eventName == u.eventName && r.dateTime == d
    ensures GetExpires(r) == NoExpiry
  {
    UnitOfTime(u.granularity, u.eventName, d, NoExpiry)
  }

  /** `getKey`: a Key holding `sprintf('%s:%s', name, label)`. */
  function GetKey(u: UnitOfTime): Key {
    Key(NameText(u.eventName) + ":" + Label(u.granularity, u.dateTime))
  }

  /** `__toString`: the key's string form. It begins with the printed event name, and the
      colon right after that name is the last colon in the key, since no label holds one. */
  function ToString(u: UnitOfTime): (s: string)
    ensures |NameText(u.eventName)| < |s| && s[..|NameText(u.eventName)|] == NameText(u.eventName)
    ensures LastColon(s) == Some(|NameText(u.eventName)|)
  {
    var n, l := NameText(u.eventName), Label(u.granularity, u.dateTime);
    var s := KeyText(GetKey(u));
    assert s == n + ":" + l;
    LabelHasNoColon(u.granularity, u.dateTime);
    assert s[|n|] == ':';
    assert forall j :: |n| < j < |s| ==> s[j] == l[j - |n| - 1];
    assert s[..|n|] == n;
    s
  }

  /** Event::getUnitsOfTime: five units of this event at the same date, keyed and ordered
      year, month, week, day, hour. */
  function EventUnits(e: Event, d: DateTime): (units: seq<(string, UnitOfTime)>)
    ensures |units| == 5
    ensures forall i :: 0 <= i < 5 ==>
              units[i].1 == Create(units[i].1.granularity, EventObject(e), d)
    ensures forall i :: 0 <= i < 5 ==> units[i].1.granularity != Infinity
    ensures [units[0].0, units[1].0, units[2].0, units[3].0, units[4].0] == ["year", "month", "week", "day", "hour"]
    ensures [units[0].1.granularity, units[1].1.granularity, units[2].1.granularity,
             units[3].1.granularity, units[4].1.granularity] == [Year, Month, Week, Day, Hour]
  {
    [ ("year", Create(Year, EventObject(e), d)),
      ("month", Create(Month, EventObject(e), d)),
      ("week", Create(Week, EventObject(e), d)),
      ("day", Create(Day, EventObject(e), d)),
      ("hour", Create(Hour, EventObject(e), d)) ]
  }

  /** The calendar bucket each granularity groups dates into. */
  predicate SameBucket(g: Granularity, a: DateTime, b: DateTime) {
    match g
    case Hour => a.year == b.year && a.month == b.month && a.day == b.day && a.hour == b.hour
    case Day => a.year == b.year && a.month == b.month && a.day == b.day
    case Week => a.year == b.year && IsoWeek(a) == IsoWeek(b)
    case Month => a.year == b.year && a.month == b.month
    case Year => a.year == b.year
    case Infinity => true
  }

  /** Labels never contain a colon, so the last colon of a key separates name and label. */
  lemma LabelHasNoColon(g: Granularity, d: DateTime)
    ensures forall j :: 0 <= j < |Label(g, d)| ==> Label(g, d)[j] != ':'
  {
    var y, m, dd, h, w := YearText(d), MonthText(d), DayText(d), HourText(d), WeekText(d);
    assert forall j :: 0 <= j < 4 ==> y[j] != ':';
    assert forall j :: 0 <= j < 2 ==> m[j] != ':' && dd[j] != ':' && h[j] != ':' && w[j] != ':';
  }

  /** Labels of different granularities never coincide (they differ in length), and within one
      granularity two dates share a label exactly when they fall in the same bucket. */
  lemma LabelIdentifiesBucket(g: Granularity, g': Granularity, a: DateTime, b: DateTime)
    ensures Label(g, a) == Label(g', b) <==> g == g' && SameBucket(g, a, b)
  {
    if g == g' {
      match g
      case Hour => HourLabelIdentifiesHour(a, b);
      case Day => DayLabelIdentifiesDay(a, b);
      case Week => WeekLabelIdentifiesYearAndWeek(a, b);
      case Month => MonthLabelIdentifiesMonth(a, b);
      case Year => YearLabelIdentifiesYear(a, b);
      case Infinity =>
    } else {
      assert |Label(g, a)| != |Label(g', b)|;
    }
  }

  /** Position of the last colon in `s`, if any. */
  function LastColon(s: string): (r: Option<nat>)
    ensures r.Some? ==> r.value < |s| && s[r.value] == ':'
    ensures r.Some? ==> forall j :: r.value < j < |s| ==> s[j] != ':'
    ensures r.None? ==> forall j :: 0 <= j < |s| ==> s[j] != ':'
  {
    if s == [] then None
    else if s[|s| - 1] == ':' then Some(|s| - 1)
    else LastColon(s[..|s| - 1])
  }

  /** Splits a unit key into event name and label at its last colon. */
  function SplitKey(s: string): Option<(string, string)> {
    match LastColon(s)
    case None => None
    case Some(i) => Some((s[..i], s[i + 1..]))
  }

  /** A unit's key reads back into its printed event name and its label, even when the event
      name itself contains colons. */
  lemma {:induction false} KeyRoundTrip(u: UnitOfTime)
    ensures SplitKey(ToString(u)) == Some((NameText(u.eventName), Label(u.granularity, u.dateTime)))
  {
    var n, l := NameText(u.eventName), Label(u.granularity, u.dateTime);
    var s := ToString(u);
    assert s == n + ":" + l;
    assert s[|n| + 1..] == l;
  }

  /** Two units have the same key exactly when their event names print the same, they have the
      same granularity and their dates fall in the same bucket; in particular two units of one
      class and event whose dates format alike share a key. */
  lemma KeyIdentifiesBucket(u: UnitOfTime, v: UnitOfTime)
    ensures ToString(u) == ToString(v)
            <==> && NameText(u.eventName) == NameText(v.eventName)
                 && u.granularity == v.granularity
                 && SameBucket(u.granularity, u.dateTime, v.dateTime)
  {
    KeyRoundTrip(u);
    KeyRoundTrip(v);
    LabelIdentifiesBucket(u.granularity, v.granularity, u.dateTime, v.dateTime);
  }

  /** All Infinity units of one event share the single key `<event>:inf`. */
  lemma InfinityKeyIsConstant(u: UnitOfTime)
    requires u.granularity == Infinity
    ensures ToString(u) == NameText(u.eventName) + ":inf"
  {
  }

  /** Units built from `new Event($name)` lose the name: their key starts with a bare colon. */
  lemma UnnamedEventKey(name: string, g: Granularity, d: DateTime)
    ensures ToString(Create(g, EventObject(New(name)), d)) == ":" + Label(g, d)
  {
  }
}

=== FILE: wrappers.dfy ===
/** Option and Result, the two failure-carrying datatypes used throughout the model.
    PHP's `null` becomes `None`; a thrown exception becomes `Failure`. */
module Wrappers {

  datatype Option<+T> = None | Some(value: T) {

    /** The wrapped value, or `default` for `None`. */
    function GetOr(default: T): T {
      match this
      case Some(v) => v
      case None => default
    }
  }

  datatype Result<+T, +E> = Success(value: T) | Failure(error: E)
}
